=== FILE: README.md ===
# Smart-Home-Client firmware core, modelled in Dafny

The firmware runs on an ESP32 that is both an MQTT smart-home client and its
own configuration portal. This project models four sequential parts of it as
pure Dafny functions and small methods, and proves what each promises.

- **The persisted configuration** (`MemoryHandler` over ESP32 `Preferences`).
  It has two namespaces, `wifi` and `broker`, each modelled as a
  `map<string, Value>`. The model covers the credential writer, the three
  getters, the two boot-check predicates and the clearing operation.
  - The writer cuts `host:port` with Arduino `String` semantics, written out
    in full: the first-colon index is narrowed to `int8_t`, and `substring`
    swaps and clamps its bounds.
  - The topic list is a colon-delimited string. Empty pieces are kept.
- **The MQTT session** (`MqttHandler`).
  - The inbound-message handler is a function from topic, payload and topic
    list to actuator and display effects.
  - Connect-with-retry at boot, the per-pump reconnect, the telemetry publish
    and the disconnect work on an abstract broker client. That client is a
    `connected` flag plus the trace of calls made on it.
- **Boot and factory reset** (`src/main.cpp`). This covers the Operate or
  Configure decision, the four-entry task table, and the six-step long-press
  teardown.
- **The configuration form's `/submit` handler.** It maps optional query
  parameters to the writer's arguments, with the "N/A" and "true" defaults.

Modules, one per file:

| file | module |
|---|---|
| `arduino_text.dfy` | `ArduinoText`: `indexOf`, `int8_t` narrowing, `substring`, `toInt` and `atol`, `uint16_t` narrowing |
| `topic_list.dfy` | `TopicList`: split and join of the topics string |
| `credential_store.dfy` | `CredentialStore` |
| `router.dfy` | `Router`: the message handler, corrected and as written |
| `session.dfy` | `Session` |
| `orchestrator.dfy` | `Orchestrator`: boot, tasks and teardown |
| `config_form.dfy` | `ConfigForm` |
| `sequences.dfy` | `Sequences`: generic concatenation facts the proofs share |

`ArduinoText` is not part of the firmware itself. It models the Arduino-core
`String` methods and C-library conversions that the cited firmware lines rely
on, so that the narrowing, clamping and saturation they perform are explicit.

The broker's connect answers are a parameter (`attempts`, one outcome per
try). The board's MAC address and the temperature reading are also
parameters. The radio link is abstract: station mode ends with the link up,
and access-point mode serves the form.

## Model

| member | source | states |
|---|---|---|
| ArduinoText.IndexOf | lib/MemoryHandler/MemoryHandler.cpp:11 | `indexOf(':')` is -1 iff the character is absent. Otherwise it is the index of its first occurrence. |
| ArduinoText.ToInt8 | lib/MemoryHandler/MemoryHandler.cpp:11 | Storing the index in `int8_t` gives a value in -128..127 that is congruent to the index modulo 256. |
| ArduinoText.ToUnsigned | lib/MemoryHandler/MemoryHandler.cpp:13-14 | A signed index passed to `substring` becomes an `unsigned int` in 0..2^32-1, congruent to it modulo 2^32. |
| ArduinoText.Substring | lib/MemoryHandler/MemoryHandler.cpp:13-14 | In-range bounds give that slice. An end past the text is clamped to the end. Reversed bounds are swapped. A start past the end gives empty text. |
| ArduinoText.SubstringFrom | lib/MemoryHandler/MemoryHandler.cpp:14 | `substring(begin)` runs to the end of the text. A start within the text gives the rest of the text from there. A start past the end gives empty text. |
| ArduinoText.DropSpace | lib/MqttHandler/MqttHandler.cpp:45 | `atol` skips leading white space. The result is a suffix of the text, every character dropped before it is white space, and it does not itself start with white space. |
| ArduinoText.LeadingDigits | lib/MqttHandler/MqttHandler.cpp:45 | The longest all-digit prefix: a prefix of digits, followed by a non-digit or the end. |
| ArduinoText.Atol | lib/MqttHandler/MqttHandler.cpp:45 | `toInt()` always yields a value in the 32-bit `long` range. A negative result needs a `-` as the first character after the leading white space. Leading white space, signs and saturation are pinned down by the `Atol…` lemmas below. |
| ArduinoText.ToUint16 | lib/MqttHandler/MqttHandler.cpp:45 | The `uint16_t` port parameter is in 0..65535 and congruent to the `long` modulo 65536. |
| ArduinoText.AtolOfUnsigned | lib/MqttHandler/MqttHandler.cpp:45 | Text that starts with neither white space nor a sign converts to the decimal value of its leading digits (0 when there are none), saturated at the `long` maximum. |
| ArduinoText.AtolSkipsSpace | lib/MqttHandler/MqttHandler.cpp:45 | A leading white-space character does not change the value. |
| ArduinoText.AtolOfMinus | lib/MqttHandler/MqttHandler.cpp:45 | `-` followed by text converts to minus the value of the leading digits after it, saturated at the `long` minimum. |
| ArduinoText.AtolOfPlus | lib/MqttHandler/MqttHandler.cpp:45 | `+` followed by text converts to the value of the leading digits after it, saturated at the `long` maximum. |
| ArduinoText.AtolSaturates | lib/MqttHandler/MqttHandler.cpp:45 | Digits worth more than the `long` maximum convert to that maximum. With a `-` in front, digits worth more than 2^31 convert to the `long` minimum. Nothing wraps around. |
| ArduinoText.AtolOfDigits | lib/MqttHandler/MqttHandler.cpp:45 | An all-digit text within the `long` range converts to its decimal value. |
| CredentialStore.SplitAddress | lib/MemoryHandler/MemoryHandler.cpp:11-14 | Host is a prefix of the address and port is a suffix of it, whatever the address. The four `SplitAddress…` lemmas below pin down the exact cut for every position of the first colon, and for no colon at all. |
| CredentialStore.GetString | lib/MemoryHandler/MemoryHandler.cpp:97-102 | `getString(key, default)` gives the stored text when the key holds text, and the default when the key is missing. |
| CredentialStore.GetBool | lib/MemoryHandler/MemoryHandler.cpp:101 | `getBool(key, default)` gives the stored flag when the key holds one, and the default when the key is missing. |
| CredentialStore.WriteWifi | lib/MemoryHandler/MemoryHandler.cpp:6-9 | Only the `wifi` namespace changes. `ssid` and `pass` hold the given texts. Every other `wifi` key keeps its value. |
| CredentialStore.WriteBroker | lib/MemoryHandler/MemoryHandler.cpp:11-19 | Only the `broker` namespace changes. Its six keys hold the two address cuts, user, password, flag and topics. Every other `broker` key keeps its value. The `wifi` namespace is untouched, so the two `pass` keys never alias. |
| CredentialStore.WriteCredentials | lib/MemoryHandler/MemoryHandler.cpp:5-20 | The getters read back `[ssid, pass]`, `[host, port, usr, pass]` and the topics. The flag reads back. The Wi-Fi check holds iff ssid and pass are non-empty. The broker check holds iff both address cuts are non-empty and (anonymous, or user, password and topics are all non-empty). |
| CredentialStore.GetWifiCredentials | lib/MemoryHandler/MemoryHandler.cpp:22-28 | Two entries: the stored `ssid` and `pass` texts, each empty when its key is missing. |
| CredentialStore.GetBrokerCredentials | lib/MemoryHandler/MemoryHandler.cpp:30-38 | Four entries: the stored `ip`, `port`, `usr` and `pass` texts, each empty when its key is missing. |
| CredentialStore.GetBrokerTopics | lib/MemoryHandler/MemoryHandler.cpp:40-60 | Returns the split of the stored topics string. It is never empty and rejoins to the stored string. |
| CredentialStore.WifiConfigAvailable | lib/MemoryHandler/MemoryHandler.cpp:66-91 | True iff both `ssid` and `pass` exist as non-empty text. |
| CredentialStore.BrokerConfigAvailable | lib/MemoryHandler/MemoryHandler.cpp:93-139 | True iff `ip` and `port` are non-empty and either the flag holds (a missing flag reads true) or `usr`, `pass` and `topics` are all non-empty. The anonymous branch accepts without looking at the topics. |
| CredentialStore.ClearMemory | lib/MemoryHandler/MemoryHandler.cpp:62-64 | Both boot checks fail afterwards, and every getter returns empty texts. |
| CredentialStore.ClearIdempotent | lib/MemoryHandler/MemoryHandler.cpp:62-64 | Clearing twice gives the same store as clearing once. |
| CredentialStore.SplitAddressAtColon | lib/MemoryHandler/MemoryHandler.cpp:11-14 | With the first colon at index below 128, host is the text before it and port the text after it. Host, ":" and port rejoin to the address. |
| CredentialStore.SplitAddressWithoutColon | lib/MemoryHandler/MemoryHandler.cpp:11-14 | With no colon, the index -1 clamps so that host and port are both the whole address. |
| CredentialStore.SplitAddressLongHost | lib/MemoryHandler/MemoryHandler.cpp:11-14 | With a first colon at index 128 to 254, the `int8_t` index wraps negative. Host becomes the whole address and port becomes empty. |
| CredentialStore.SplitAddressFarColon | lib/MemoryHandler/MemoryHandler.cpp:11-14 | With a first colon at index 255 or later, the cut falls where the wrapped `int8_t` index points. A non-negative index `k` cuts around position `k`, which is not a colon. An index of -1 makes host and port both the whole address. Any other negative index gives the whole address as host and an empty port. |
| CredentialStore.TopicsRoundTrip | lib/MemoryHandler/MemoryHandler.cpp:40-60 | The written topics read back as pieces free of colons. The pieces rejoin to the written string, and there is one more piece than there are colons. |
| TopicList.SplitTopics | lib/MemoryHandler/MemoryHandler.cpp:45-57 | The index loop produces exactly the left-to-right split, and its result rejoins to the input. |
| TopicList.SplitHasNoSeparator | lib/MemoryHandler/MemoryHandler.cpp:49-56 | No piece contains a colon. |
| TopicList.JoinSplit | lib/MemoryHandler/MemoryHandler.cpp:49-56 | Joining the pieces with ":" reproduces the string. |
| TopicList.SplitJoin | lib/MemoryHandler/MemoryHandler.cpp:49-56 | Any non-empty list of colon-free pieces, empty ones included, is recovered from its joined form. |
| TopicList.SplitLength | lib/MemoryHandler/MemoryHandler.cpp:49-56 | The number of pieces is the number of colons plus one. |
| TopicList.SplitAppendPlain | lib/MemoryHandler/MemoryHandler.cpp:49-56 | Colon-free text only extends the last piece. |
| TopicList.SplitAfterSeparator | lib/MemoryHandler/MemoryHandler.cpp:49-56 | A colon followed by colon-free text opens exactly one new piece. |
| TopicList.SplitPlain | lib/MemoryHandler/MemoryHandler.cpp:49-56 | Colon-free text is a single piece. |
| TopicList.SplitEmpty | lib/MemoryHandler/MemoryHandler.cpp:49-56 | An empty string gives `[""]`. |
| TopicList.SplitKeepsEmptyPiece | lib/MemoryHandler/MemoryHandler.cpp:49-56 | `"a::b"` gives `["a", "", "b"]`. |
| TopicList.SplitFourFields | lib/MemoryHandler/MemoryHandler.cpp:49-56 | Four colon-free fields joined by colons read back as exactly those four. |
| Router.DecodePayload | lib/MqttHandler/MqttHandler.cpp:18-20 | The message has one character per payload byte, with the same values in the same order. |
| Router.EncodeText | lib/MqttHandler/MqttHandler.cpp:18-20 | The inverse direction: one byte per character of byte-sized text. |
| Router.DecodeEncode | lib/MqttHandler/MqttHandler.cpp:18-20 | Decoding loses nothing: encoding the decoded text gives back the payload. |
| Router.EncodeDecode | lib/MqttHandler/MqttHandler.cpp:18-20 | Byte-sized text survives encoding then decoding. |
| Router.Device | lib/MqttHandler/MqttHandler.cpp:6-8 | `device(state, pin)` drives exactly that pin, HIGH iff `state` is true. |
| Router.Route | lib/MqttHandler/MqttHandler.cpp:23-41 | For each of entries 1 and 2 (pins 27 and 26), the pin is driven LOW iff the topic equals that entry and the message is exactly "on", and driven HIGH iff the message is exactly "off". The message is shown iff the topic equals entry 3. There are no other effects, nothing fires iff no route matches, and effects come in index order 1, 2, 3. |
| Router.Callback | lib/MqttHandler/MqttHandler.cpp:15-42 | For NUL-free payloads, only a two- or three-byte payload can drive a relay. The display gets the payload byte for byte. |
| Router.CallbackRoutesText | lib/MqttHandler/MqttHandler.cpp:15-42 | A message sent as bytes is routed as the text it encodes. |
| Router.TelemetryTopicIgnored | lib/MqttHandler/MqttHandler.cpp:23-41 | A topic equal only to entry 0 causes no effect. |
| Router.SharedTopicFiresAll | lib/MqttHandler/MqttHandler.cpp:23-41 | A topic equal to entries 1, 2 and 3 fires relay A, relay B and the display, in that order. |
| Router.RouteExamples | lib/MqttHandler/MqttHandler.cpp:23-41 | "on" on entry 1 drives pin 27 LOW. "ON" does nothing. Any text on entry 3 is shown. An unknown topic does nothing. |
| Router.RouteAsWritten | lib/MqttHandler/MqttHandler.cpp:23-41 | The handler with the guards as written. A fault always reads index `i` of a list of exactly `i` entries, after the guard let it through. The effects performed before the fault are exactly the corrected handler's effects on that list. |
| Router.RouteAsWrittenReadsPastEnd | lib/MqttHandler/MqttHandler.cpp:23-41 | As written, the handler reads past the end iff the list has 1 to 3 entries. Otherwise it agrees with the corrected handler. |
| Router.SingleTopicCounterexample | lib/MqttHandler/MqttHandler.cpp:23-25 | With the one-entry list `["temp"]`, the first guard passes and entry 1 is read past the end before any effect. |
| Router.TwoTopicCounterexample | lib/MqttHandler/MqttHandler.cpp:23-31 | With `["temp", "lamp"]` and "on" on "lamp", pin 27 is driven LOW first, then the second guard passes and entry 2 is read past the end. |
| Session.ClientId | lib/MqttHandler/MqttHandler.cpp:49-50 | The id is "esp32-client-" followed by the MAC text. |
| Session.Port | lib/MqttHandler/MqttHandler.cpp:45 | The port reaching the client is below 65536. |
| Session.PortOfDecimal | lib/MqttHandler/MqttHandler.cpp:45 | A port written in decimal below 65536 reaches the client unchanged. |
| Session.Subscriptions | lib/MqttHandler/MqttHandler.cpp:57-60 | One subscribe per topic, in list order. |
| Session.Refusals | lib/MqttHandler/MqttHandler.cpp:53-65 | `n` refused connect attempts, all with the board's client id. |
| Session.SubscribeAll | lib/MqttHandler/MqttHandler.cpp:57-60 | The loop appends exactly one subscribe per topic, in order, and leaves the connection state alone. |
| Session.MqttSetup | lib/MqttHandler/MqttHandler.cpp:44-67 | Server then handler are set first. Refused attempts follow, then the one accepted attempt, then one subscribe per topic. The client ends connected iff some attempt is accepted. Every attempt before the accepted one was refused. |
| Session.Dispatch | lib/MqttHandler/MqttHandler.cpp:85 | A pump delivers at most three effects per inbound message. |
| Session.DispatchSingle | lib/MqttHandler/MqttHandler.cpp:15-42 | One delivered message has exactly the effects of one `callback` call. |
| Session.DispatchAppend | lib/MqttHandler/MqttHandler.cpp:85 | Two batches delivered in turn have the effects of the first followed by those of the second. Messages are handled one at a time, in arrival order. |
| Session.MqttLoop | lib/MqttHandler/MqttHandler.cpp:69-86 | Earlier calls are kept. The added calls are exactly: nothing on a live connection; otherwise one connect with the board's id, then one subscribe per topic only if it was accepted. Then one `loop()` call. The client ends connected iff it was connected or the attempt was accepted. Messages are delivered only on a live connection. |
| Session.Attempt | lib/MqttHandler/MqttHandler.cpp:70-84 | Nothing on a live connection. Otherwise the first call is the connect with the board's id, followed by one subscribe per topic iff it was accepted. |
| Session.SendTemp | lib/MqttHandler/MqttHandler.cpp:88-92 | Exactly one call is added: a publish to the first topic. The connection state is unchanged. |
| Session.Close | lib/MqttHandler/MqttHandler.cpp:94-96 | One disconnect is appended, and the client is disconnected afterwards. |
| Orchestrator.RegisterAndEnable | src/main.cpp:66-74 | Every task becomes registered and enabled. Nothing else about any task changes. |
| Orchestrator.DisableAll | src/main.cpp:11 | Every task becomes disabled. Nothing else changes. |
| Orchestrator.DecideMode | src/main.cpp:55 | Operate iff `ssid` and the Wi-Fi `pass` are non-empty text, `ip` and `port` are non-empty text, and either the flag holds (a missing flag reads true) or `usr`, broker `pass` and `topics` are all non-empty. |
| Orchestrator.EnabledJobs | src/main.cpp:83 | A job is in the list iff some registered and enabled task runs it. With no task enabled, the list is empty. |
| Orchestrator.Runnable | src/main.cpp:83 | A paused runner runs nothing. Otherwise a job runs iff some registered and enabled task runs it. |
| Orchestrator.Pause | src/main.cpp:10 | The tasks keep their flags, but nothing is runnable. |
| Orchestrator.OpenSession | src/main.cpp:63 | The session ends up connected iff it already was or some connect attempt is accepted. |
| Orchestrator.RegisteredTableRunsAll | src/main.cpp:66-74 | After registration all four jobs are runnable, in table order. |
| Orchestrator.BootOperate | src/main.cpp:56-74 | The session gets the split stored topics and the stored broker credentials. The link joins the stored network. With a connected session, the steps run in order (load, construct, link, connect, register) and all four tasks are enabled with periods 2000, 2000, 100 and 50 ms. Otherwise no task is registered. |
| Orchestrator.Boot | src/main.cpp:55-79 | Operate iff both store checks hold. In Operate: the session gets the stored topics and broker credentials, and the link joins the stored network. With a connected session every step runs in order and all four jobs are runnable. Otherwise the trace stops after the link step and no task is registered. In Configure: the access point "Esp32", no session, no task registered, nothing runnable. The button job is runnable only in Operate with a connected session. |
| Orchestrator.LongPressStop | src/main.cpp:9-16 | Six states in the order pause, disable, close session, clear store, drop link, restart. Each state is the previous one with exactly one component changed, so each component changes only at its own step. |
| Orchestrator.LongPressStopSteps | src/main.cpp:9-16 | Nothing is runnable at any step. From the second step on, every state has the paused scheduler with all tasks disabled. From the third the session is the closed one. From the fourth the store is cleared. The final store fails the boot check. |
| Orchestrator.ResetAndReboot | src/main.cpp:9-16 | After the teardown, the next boot enters Configure mode on a cleared store, with nothing runnable. |
| ConfigForm.Param | lib/HttpServer/HttpServer.cpp:101-121 | A parameter present in the request gives its value, even when that value is empty. An absent one gives the default. |
| ConfigForm.ReadForm | lib/HttpServer/HttpServer.cpp:101-124 | An absent text field reads "N/A", so a field is empty only if it was sent empty. The flag is true iff `input6` is absent or exactly "true". |
| ConfigForm.Submit | lib/HttpServer/HttpServer.cpp:101-127 | Values go to the writer positionally. The Wi-Fi check fails iff `input1` or `input2` was sent empty. The stored flag and topics are what was sent, or their defaults. |
| ConfigForm.EmptyFormBootsOperate | lib/HttpServer/HttpServer.cpp:101-127 | A request with no parameters stores "N/A" everywhere, and the next boot enters Operate mode. |
| ConfigForm.ReadFilledForm | lib/HttpServer/HttpServer.cpp:101-124 | A request without the user and broker password fields reads those two as "N/A" and the rest as sent. The served page always sends both fields, so only a hand-made request takes this path. |
| Router.OffOnSecondTopic | lib/MqttHandler/MqttHandler.cpp:23-29 | "off" on entry 1 drives pin 27 HIGH when no later entry shares the topic. |
| ConfigForm.ConfiguredDeviceSwitchesRelay | lib/HttpServer/HttpServer.cpp:101-127 | A form with `host:port`, anonymous login and four topics leads to an Operate boot. Host and port come back as sent, the topics read back field by field, and "off" on the second topic switches relay A off. |

## Left out

- Radio link: the Wi-Fi library wrapper (`lib/WifiHandler/`), its event callbacks and its blocking connect loop are not part of this model. Station mode is an abstract step that ends connected.
- Web server: the HTML page, the web server's routing and the response text after the `writeCredentials` call in the `/submit` handler are not modelled.
- Hardware: GPIO writes, the LED matrix, the OneButton long-press timing and `esp_restart` become effect records or flags. The status-LED job and the button job's body are not modelled beyond being runnable.
- Scheduling: TaskScheduler due times and periods in action are out. Only the registered, enabled and paused flags are modelled.
- Output and memory: Serial logging, the `delay` back-offs and the leaking `new char[]` buffers in `getBrokerTopics` are left out.
- Session.SendTemp: the reading is an opaque text parameter. The sensor read and the `dtostrf` float formatting are floating point and driver work.
- Session.MqttSetup: the source retries for ever. The model tries the given outcomes in order and returns still disconnected when they run out. That return stands for the device staying blocked in this loop.
- Orchestrator.Boot: when no connect attempt is accepted, the model returns with no task registered. The source never returns from that point.
- Orchestrator.LongPressStop: requires a constructed session. In Configure mode `mqttHandler` is null, but no button job runs there, so the reset path is unreachable in that mode (see `Orchestrator.Boot`).
- Text: all text is modelled without NUL bytes. `Preferences::putString` stores C strings, and `getBrokerTopics` copies with `strcpy` (`lib/MemoryHandler/MemoryHandler.cpp:53`), so both would cut a value at its first NUL. Texts containing NUL are outside the model.
- CredentialStore.SplitAddress: a string stands for the firmware's bytes, one character per byte, so its contract holds for text whose characters are all below 256. The firmware's `indexOf` counts bytes. A character that UTF-8 encodes in several bytes would move the colon's byte index. For example, 43 '€' followed by `:1883` puts the colon at byte 129, which `int8_t` turns into -127, while the model cuts at character 43. Multi-byte text is outside the model.
- ConfigForm.Query: the submitted form is a map, so it holds one value per parameter name. AsyncWebServer's `getParam` returns the first of repeated names. Requests that repeat a name are outside the model.
- Router.Route: compares the message with "on" and "off" as character sequences. Arduino `String` comparison uses `strcmp` and stops at an embedded NUL byte, and that is not modelled.
- Router.Callback: the two-or-three-byte bound holds only for NUL-free payloads. Under `strcmp` semantics a longer payload such as "on" followed by NUL bytes would also match "on".
- Session.MqttLoop: one pump may deliver several inbound messages. It stands for consecutive `loop()` calls, because `PubSubClient::loop` handles at most one packet per call.
- Session.MqttLoop: the connection never drops during a pump. A keep-alive timeout inside `loop()` can disconnect the client there, and that is not modelled.
- Session.MqttSetup: the connection never drops between the accepted connect and the subscriptions. In the source such a drop would send the `while` loop at `lib/MqttHandler/MqttHandler.cpp:48` round again, and that is not modelled.
- CredentialStore.WriteCredentials: treats `Preferences` as a plain map. Flash-write failures, key-length limits and the namespace open and close calls are not modelled.

## Findings

| source | as written | input that shows it | evidently intended | confidence | as-written member | corrected member |
|---|---|---|---|---|---|---|
| lib/MqttHandler/MqttHandler.cpp:23-41 | each guard tests `topic_list.size() > i - 1`, then reads `topic_list[i]` | a stored topics string "temp" (one entry) and any inbound message: the first guard passes and `topic_list[1]` is read past the end; with `["temp", "lamp"]` and "on" on "lamp", relay A switches and then `topic_list[2]` is read past the end | guard `topic_list.size() > i` before reading entry `i` | high; not executed | Router.RouteAsWritten | Router.Route |

`Router.RouteAsWrittenReadsPastEnd` and `Router.SingleTopicCounterexample` exhibit the fault. The rest of the model (`Router.Callback`, `Session.Dispatch`, `Session.MqttLoop`) uses the corrected `Router.Route`.

=== FILE: arduino_text.dfy ===
/** The parts of the Arduino `String` class and of the C library that the
    firmware's text handling depends on: the character search, the clamping
    `substring`, the narrowing of a search result to `int8_t`, the conversion
    of a signed value to an `unsigned int` argument, and `toInt()` (which is
    `atol`). Integer widths are written out explicitly because Dafny's
    integers are unbounded. */
module ArduinoText {

  /** `unsigned int` on the ESP32 is 32 bits wide. */
  const UintRange: int := 0x1_0000_0000

  /** `long` on the ESP32 is 32 bits wide. */
  const LongMin: int := -0x8000_0000
  const LongMax: int := 0x7FFF_FFFF

  function Min(a: int, b: int): int { if a <= b then a else b }
  function Max(a: int, b: int): int { if a <= b then b else a }

  /** `String::indexOf(char)`: the position of the first occurrence of `c`,
      or -1 when there is none. */
  function IndexOf(s: string, c: char): (r: int)
    ensures -1 <= r < |s|
    ensures r == -1 <==> c !in s
    ensures r >= 0 ==> s[r] == c && c !in s[..r]
  {
    if |s| == 0 then -1
    else if s[0] == c then 0
    else
      var k := IndexOf(s[1..], c);
      if k == -1 then -1
      else
        assert s[..k + 1] == [s[0]] + s[1..][..k];
        k + 1
  }

  /** Storing an `int` into an `int8_t`: the two's-complement truncation to
      eight bits. */
  function ToInt8(x: int): (r: int)
    ensures -128 <= r < 128
    ensures (x - r) % 256 == 0
  {
    var m := x % 256;
    if m >= 128 then m - 256 else m
  }

  /** Passing a signed value where an `unsigned int` is expected: reduction
      modulo 2^32. */
  function ToUnsigned(x: int): (r: int)
    ensures 0 <= r < UintRange
    ensures (x - r) % UintRange == 0
  {
    x % UintRange
  }

  /** Within one period of zero, the unsigned view adds 2^32 to a negative
      value and keeps any other. */
  lemma ToUnsignedNear(x: int)
    requires -UintRange <= x < UintRange
    ensures ToUnsigned(x) == if x < 0 then x + UintRange else x
  {
  }

  /** `String::substring(left, right)`: swaps reversed bounds, yields the
      empty string when the start lies past the end, and clamps the end to
      the length. */
  function Substring(s: string, left: nat, right: nat): (r: string)
    ensures left <= right <= |s| ==> r == s[left..right]
    ensures left <= |s| <= right ==> r == s[left..]
    ensures right < left ==> r == Substring(s, right, left)
    ensures |s| <= left && |s| <= right ==> r == ""
  {
    var lo := Min(left, right);
    var hi := Max(left, right);
    if lo > |s| then "" else s[lo..Min(hi, |s|)]
  }

  /** `String::substring(begin)`, which is `substring(begin, length())`. */
  function SubstringFrom(s: string, begin: nat): (r: string)
    ensures begin <= |s| ==> r == s[begin..]
    ensures |s| < begin ==> r == ""
  {
    Substring(s, begin, |s|)
  }

  predicate IsDigit(c: char) { '0' <= c <= '9' }

  /** White space as the C library's `isspace` knows it. */
  predicate IsSpace(c: char) { c == ' ' || 9 <= c as int <= 13 }

  function DigitValue(c: char): nat
    requires IsDigit(c)
  {
    c as int - '0' as int
  }

  /** The value of a string of decimal digits, most significant first. */
  function DecimalValue(d: string): nat
    requires forall i :: 0 <= i < |d| ==> IsDigit(d[i])
  {
    if |d| == 0 then 0 else 10 * DecimalValue(d[..|d| - 1]) + DigitValue(d[|d| - 1])
  }

  /** `strtol`'s skipping of leading white space: the longest suffix of `s`
      that does not start with white space. */
  function DropSpace(s: string): (r: string)
    ensures |r| <= |s| && r == s[|s| - |r|..]
    ensures forall i :: 0 <= i < |s| - |r| ==> IsSpace(s[i])
    ensures |r| > 0 ==> !IsSpace(r[0])
  {
    if |s| > 0 && IsSpace(s[0]) then DropSpace(s[1..]) else s
  }

  /** The longest prefix of `s` made of decimal digits. */
  function LeadingDigits(s: string): (r: string)
    ensures |r| <= |s| && r == s[..|r|]
    ensures forall i :: 0 <= i < |r| ==> IsDigit(r[i])
    ensures |r| < |s| ==> !IsDigit(s[|r|])
  {
    if |s| > 0 && IsDigit(s[0]) then [s[0]] + LeadingDigits(s[1..]) else ""
  }

  /** `String::toInt()`, which is `atol`, which in the ESP32 C library is
      `strtol(s, NULL, 10)`: leading white space, an optional sign, then
      decimal digits; a value out of `long` range saturates. */
  function Atol(s: string): (r: int)
    ensures LongMin <= r <= LongMax
    ensures r < 0 ==> |DropSpace(s)| > 0 && DropSpace(s)[0] == '-'
  {
    SignedValue(DropSpace(s))
  }

  /** The conversion after the white space: an optional sign, then the
      value of the leading digits, saturated at the `long` bounds. */
  function SignedValue(t: string): (r: int)
    ensures LongMin <= r <= LongMax
    ensures r < 0 ==> |t| > 0 && t[0] == '-'
  {
    if |t| > 0 && t[0] == '-' then Max(-(Magnitude(t[1..]) as int), LongMin)
    else if |t| > 0 && t[0] == '+' then Min(Magnitude(t[1..]), LongMax)
    else Min(Magnitude(t), LongMax)
  }

  /** The value of the leading digits. */
  function Magnitude(t: string): nat
  {
    DecimalValue(LeadingDigits(t))
  }

  /** A `long` passed where a `uint16_t` port is expected: truncation to
      sixteen bits. */
  function ToUint16(x: int): (r: nat)
    ensures r < 0x1_0000
    ensures (x - r) % 0x1_0000 == 0
  {
    x % 0x1_0000
  }

  /** A string of digits reads back as its decimal value, so a port number
      written in decimal reaches the broker client unchanged. */
  lemma AtolOfDigits(d: string)
    requires forall i :: 0 <= i < |d| ==> IsDigit(d[i])
    requires DecimalValue(d) <= LongMax
    ensures Atol(d) == DecimalValue(d)
  {
    LeadingDigitsOfDigits(d);
    if |d| > 0 {
      assert IsDigit(d[0]);
      assert !IsSpace(d[0]) && d[0] != '-' && d[0] != '+';
    }
    AtolOfUnsigned(d);
    var v := DecimalValue(d);
    assert Atol(d) == Min(v, LongMax);
  }

  /** Text with no leading white space or sign reads as its leading digits. */
  lemma AtolOfUnsigned(s: string)
    requires |s| > 0 ==> !IsSpace(s[0]) && s[0] != '-' && s[0] != '+'
    ensures Atol(s) == Min(Magnitude(s), LongMax)
  {
    assert DropSpace(s) == s;
    assert Atol(s) == SignedValue(s);
  }

  /** Leading white space does not change the value. */
  lemma AtolSkipsSpace(c: char, s: string)
    requires IsSpace(c)
    ensures Atol([c] + s) == Atol(s)
  {
    assert ([c] + s)[1..] == s;
    assert DropSpace([c] + s) == DropSpace(s);
  }

  /** A '-' negates the value of the digits after it, saturating at the
      `long` minimum. */
  lemma AtolOfMinus(s: string)
    ensures Atol("-" + s) == Max(-(Magnitude(s) as int), LongMin)
  {
    var t := "-" + s;
    assert !IsSpace('-');
    assert DropSpace(t) == t;
    assert t[1..] == s;
    assert Atol(t) == SignedValue(t);
  }

  /** A '+' reads the digits after it as they are. */
  lemma AtolOfPlus(s: string)
    ensures Atol("+" + s) == Min(Magnitude(s), LongMax)
  {
    var t := "+" + s;
    assert !IsSpace('+');
    assert DropSpace(t) == t;
    assert t[1..] == s;
    assert Atol(t) == SignedValue(t);
  }

  /** Out-of-range digits saturate instead of wrapping: too large a value
      reads as the `long` maximum, too small a negative one as the minimum. */
  lemma AtolSaturates(d: string)
    requires forall i :: 0 <= i < |d| ==> IsDigit(d[i])
    ensures DecimalValue(d) > LongMax ==> Atol(d) == LongMax
    ensures DecimalValue(d) > -LongMin ==> Atol("-" + d) == LongMin
  {
    LeadingDigitsOfDigits(d);
    if |d| > 0 {
      assert IsDigit(d[0]);
      assert !IsSpace(d[0]) && d[0] != '-' && d[0] != '+';
    }
    AtolOfUnsigned(d);
    AtolOfMinus(d);
  }

  lemma {:induction false} LeadingDigitsOfDigits(d: string)
    requires forall i :: 0 <= i < |d| ==> IsDigit(d[i])
    ensures LeadingDigits(d) == d
  {
    if |d| > 0 {
      LeadingDigitsOfDigits(d[1..]);
    }
  }
}

=== FILE: config_form.dfy ===
/** The `/submit` handler of the local configuration form: every query
    parameter falls back to a default when absent ("N/A" for the text
    fields, "true" for the anonymous flag), and the seven values go to
    `writeCredentials` in positional order. Nothing is validated, so an
    empty submission stores "N/A" everywhere and is a complete
    configuration at the next boot. */
module ConfigForm {
  import opened CredentialStore
  import TopicList
  import Router
  import Orchestrator

  /** The request's query parameters, name to value. */
  type Query = map<string, string>

  /** Default of an absent text parameter. */
  const Missing: string := "N/A"
  /** Default of an absent `input6`, and the only value read as anonymous. */
  const AnonymousYes: string := "true"

  const SsidParam: string := "input1"
  const WifiPassParam: string := "input2"
  const AddressParam: string := "input3"
  const UserParam: string := "input4"
  const BrokerPassParam: string := "input5"
  const AnonymousParam: string := "input6"
  const TopicsParam: string := "topics"

  /** `hasParam(name) ? getParam(name)->value() : default`. */
  function Param(q: Query, name: string, default: string): (r: string)
    ensures name in q ==> r == q[name]
    ensures name !in q ==> r == default
  {
    if name in q then q[name] else default
  }

  /** A parameter present in the request with empty text. */
  predicate SuppliedEmpty(q: Query, name: string)
  {
    name in q && q[name] == ""
  }

  /** A text field read as the handler reads it: the supplied value, or
      "N/A" when absent. */
  predicate ReadAs(q: Query, name: string, field: string)
  {
    && (name in q ==> field == q[name])
    && (name !in q ==> field == Missing)
  }

  datatype Submission = Submission(ssid: string, wifiPass: string, addr: string, usr: string,
                                   brokerPass: string, anonymous: bool, topics: string)

  /** The handler's reading of the query. A text field is empty only when
      the form sent it empty; the flag is true when `input6` is absent or
      exactly "true". */
  function ReadForm(q: Query): (s: Submission)
    ensures ReadAs(q, SsidParam, s.ssid) && ReadAs(q, WifiPassParam, s.wifiPass)
    ensures ReadAs(q, AddressParam, s.addr) && ReadAs(q, UserParam, s.usr)
    ensures ReadAs(q, BrokerPassParam, s.brokerPass) && ReadAs(q, TopicsParam, s.topics)
    ensures s.ssid == "" <==> SuppliedEmpty(q, SsidParam)
    ensures s.wifiPass == "" <==> SuppliedEmpty(q, WifiPassParam)
    ensures s.addr == "" <==> SuppliedEmpty(q, AddressParam)
    ensures s.usr == "" <==> SuppliedEmpty(q, UserParam)
    ensures s.brokerPass == "" <==> SuppliedEmpty(q, BrokerPassParam)
    ensures s.topics == "" <==> SuppliedEmpty(q, TopicsParam)
    ensures s.anonymous <==> AnonymousParam !in q || q[AnonymousParam] == AnonymousYes
  {
    Submission(Param(q, SsidParam, Missing), Param(q, WifiPassParam, Missing),
               Param(q, AddressParam, Missing), Param(q, UserParam, Missing),
               Param(q, BrokerPassParam, Missing),
               Param(q, AnonymousParam, AnonymousYes) == AnonymousYes,
               Param(q, TopicsParam, Missing))
  }

  /** The whole handler: read the form and write the credentials. The Wi-Fi
      check then fails exactly when the form sent an empty SSID or password,
      and the stored flag and topics are what the form sent or their
      defaults. */
  function Submit(st: Store, q: Query): (r: Store)
    ensures GetWifiCredentials(r) == [ReadForm(q).ssid, ReadForm(q).wifiPass]
    ensures WifiConfigAvailable(r) <==> !SuppliedEmpty(q, SsidParam) && !SuppliedEmpty(q, WifiPassParam)
    ensures GetBool(r.broker, AnonymousKey, false) <==> AnonymousParam !in q || q[AnonymousParam] == AnonymousYes
    ensures ReadAs(q, TopicsParam, TopicsText(r))
    ensures var (host, port) := SplitAddress(ReadForm(q).addr);
            GetBrokerCredentials(r) == [host, port, ReadForm(q).usr, ReadForm(q).brokerPass]
  {
    var s := ReadForm(q);
    WriteCredentials(st, s.ssid, s.wifiPass, s.addr, s.usr, s.brokerPass, s.anonymous, s.topics)
  }

  /** A request without any parameter stores "N/A" in every field and the
      anonymous flag true, which the next boot accepts as complete. */
  lemma EmptyFormBootsOperate(st: Store)
    ensures GetWifiCredentials(Submit(st, map[])) == [Missing, Missing]
    ensures GetBrokerCredentials(Submit(st, map[])) == [Missing, Missing, Missing, Missing]
    ensures Orchestrator.DecideMode(Submit(st, map[])) == Orchestrator.Operate
  {
    SplitAddressWithoutColon(Missing);
  }

  /** A request carrying network credentials, `host:port`, anonymous login
      and a topics string, and no user name or broker password fields at
      all. The served page always sends those two fields, empty when left
      blank, so only a request built by hand takes the `"N/A"` defaults
      this query exercises. */
  function FilledForm(ssid: string, pass: string, addr: string, topics: string): Query
  {
    map[SsidParam := ssid, WifiPassParam := pass, AddressParam := addr,
        AnonymousParam := AnonymousYes, TopicsParam := topics]
  }

  lemma ReadFilledForm(ssid: string, pass: string, addr: string, topics: string)
    ensures ReadForm(FilledForm(ssid, pass, addr, topics))
            == Submission(ssid, pass, addr, Missing, Missing, true, topics)
  {
    var q := FilledForm(ssid, pass, addr, topics);
    assert UserParam !in q && BrokerPassParam !in q by {
      assert q.Keys == {SsidParam, WifiPassParam, AddressParam, AnonymousParam, TopicsParam};
      assert UserParam[5] == '4' && BrokerPassParam[5] == '5';
    }
  }

  /** A filled-in form with four colon-separated topics: the next boot
      runs, the host and port are the two sides of the address, the topic
      list reads back as the four fields, and "off" on the second topic
      switches the first relay off (drives its pin HIGH). */
  lemma ConfiguredDeviceSwitchesRelay(st: Store, ssid: string, pass: string, host: string, port: string,
                                      t0: string, t1: string, t2: string, t3: string)
    requires ssid != "" && pass != "" && host != "" && port != ""
    requires |host| < 128 && ':' !in host
    requires TopicList.Separator !in t0 && TopicList.Separator !in t1
    requires TopicList.Separator !in t2 && TopicList.Separator !in t3
    requires t1 != t2 && t1 != t3
    ensures var topicText := t0 + [TopicList.Separator] + t1 + [TopicList.Separator] + t2 + [TopicList.Separator] + t3;
            var r := Submit(st, FilledForm(ssid, pass, host + ":" + port, topicText));
            && Orchestrator.DecideMode(r) == Orchestrator.Operate
            && GetBrokerCredentials(r) == [host, port, Missing, Missing]
            && TopicList.Split(TopicsText(r)) == [t0, t1, t2, t3]
            && Router.Route(t1, Router.OffCommand, TopicList.Split(TopicsText(r)))
               == [Router.DriveOutput(Router.PinA, Router.High)]
  {
    var topicText := t0 + [TopicList.Separator] + t1 + [TopicList.Separator] + t2 + [TopicList.Separator] + t3;
    var addr := host + ":" + port;
    assert addr[|host|] == ':' && addr[..|host|] == host && addr[|host| + 1..] == port;
    SplitAddressAtColon(addr, |host|);
    TopicList.SplitFourFields(t0, t1, t2, t3);
    ReadFilledForm(ssid, pass, addr, topicText);
    var r := Submit(st, FilledForm(ssid, pass, addr, topicText));
    assert r == WriteCredentials(st, ssid, pass, addr, Missing, Missing, true, topicText);
    Router.OffOnSecondTopic(t0, t1, t2, t3);
  }
}

=== FILE: credential_store.dfy ===
/** The persisted configuration (`MemoryHandler` over the ESP32
    `Preferences` library): two namespaces, `wifi` and `broker`, each a flat
    key/value map. Reads of a missing key, or of a key holding a value of
    another type, return the caller's default, as `getString`/`getBool` do. */
module CredentialStore {
  import opened ArduinoText
  import TopicList

  datatype Value = Text(text: string) | Flag(flag: bool)

  type Namespace = map<string, Value>

  datatype Store = Store(wifi: Namespace, broker: Namespace)

  // Keys of the `wifi` namespace.
  const SsidKey: string := "ssid"
  const WifiPassKey: string := "pass"

  // Keys of the `broker` namespace.
  const IpKey: string := "ip"
  const PortKey: string := "port"
  const UserKey: string := "usr"
  const BrokerPassKey: string := "pass"
  const AnonymousKey: string := "anonymous"
  const TopicsKey: string := "topics"

  /** `getString(key, default)`. */
  function GetString(ns: Namespace, key: string, default: string): (r: string)
    ensures key in ns && ns[key].Text? ==> r == ns[key].text
    ensures key !in ns ==> r == default
  {
    if key in ns && ns[key].Text? then ns[key].text else default
  }

  /** `getBool(key, default)`. */
  function GetBool(ns: Namespace, key: string, default: bool): (r: bool)
    ensures key in ns && ns[key].Flag? ==> r == ns[key].flag
    ensures key !in ns ==> r == default
  {
    if key in ns && ns[key].Flag? then ns[key].flag else default
  }

  /** A key that holds a non-empty text value. */
  predicate HasText(ns: Namespace, key: string)
  {
    key in ns && ns[key].Text? && ns[key].text != ""
  }

  /** How `writeCredentials` cuts `host:port`: the search result for the
      first colon is stored in an `int8_t`, and both halves come from
      Arduino's clamping `substring` with that narrowed index. */
  function SplitAddress(addr: string): (r: (string, string))
    ensures |r.0| <= |addr| && r.0 == addr[..|r.0|]
    ensures |r.1| <= |addr| && r.1 == addr[|addr| - |r.1|..]
  {
    var colon := ToInt8(IndexOf(addr, ':'));
    (Substring(addr, 0, ToUnsigned(colon)), SubstringFrom(addr, ToUnsigned(colon + 1)))
  }

  /** The `wifi` half of `writeCredentials`. */
  function WriteWifi(st: Store, ssid: string, pass: string): (r: Store)
    ensures r.broker == st.broker
    ensures r.wifi.Keys == st.wifi.Keys + {SsidKey, WifiPassKey}
    ensures r.wifi[SsidKey] == Text(ssid) && r.wifi[WifiPassKey] == Text(pass)
    ensures forall k :: k in st.wifi && k != SsidKey && k != WifiPassKey ==> r.wifi[k] == st.wifi[k]
  {
    st.(wifi := st.wifi[SsidKey := Text(ssid)][WifiPassKey := Text(pass)])
  }

  /** The `broker` half of `writeCredentials`. */
  function WriteBroker(st: Store, addr: string, usr: string, pass: string, anonymous: bool, topics: string): (r: Store)
    ensures r.wifi == st.wifi
    ensures r.broker.Keys == st.broker.Keys + {IpKey, PortKey, UserKey, BrokerPassKey, AnonymousKey, TopicsKey}
    ensures r.broker[IpKey] == Text(SplitAddress(addr).0) && r.broker[PortKey] == Text(SplitAddress(addr).1)
    ensures r.broker[UserKey] == Text(usr) && r.broker[BrokerPassKey] == Text(pass)
    ensures r.broker[AnonymousKey] == Flag(anonymous) && r.broker[TopicsKey] == Text(topics)
    ensures forall k :: k in st.broker && k !in {IpKey, PortKey, UserKey, BrokerPassKey, AnonymousKey, TopicsKey} ==>
              r.broker[k] == st.broker[k]
  {
    var written := BrokerEntries(SplitAddress(addr), usr, pass, anonymous, topics);
    st.(broker := st.broker + written)
  }

  /** The six entries `writeCredentials` puts into `broker`. */
  function BrokerEntries(cut: (string, string), usr: string, pass: string, anonymous: bool, topics: string): (m: Namespace)
    ensures m.Keys == {IpKey, PortKey, UserKey, BrokerPassKey, AnonymousKey, TopicsKey}
    ensures m[IpKey] == Text(cut.0) && m[PortKey] == Text(cut.1)
    ensures m[UserKey] == Text(usr) && m[BrokerPassKey] == Text(pass)
    ensures m[AnonymousKey] == Flag(anonymous) && m[TopicsKey] == Text(topics)
  {
    BrokerKeysDistinct();
    map[IpKey := Text(cut.0), PortKey := Text(cut.1), UserKey := Text(usr),
        BrokerPassKey := Text(pass), AnonymousKey := Flag(anonymous), TopicsKey := Text(topics)]
  }

  /** The six `broker` keys are pairwise different, so no write in
      `writeCredentials` overwrites another. */
  lemma BrokerKeysDistinct()
    ensures IpKey != PortKey && IpKey != UserKey && IpKey != BrokerPassKey && IpKey != AnonymousKey && IpKey != TopicsKey
    ensures PortKey != UserKey && PortKey != BrokerPassKey && PortKey != AnonymousKey && PortKey != TopicsKey
    ensures UserKey != BrokerPassKey && UserKey != AnonymousKey && UserKey != TopicsKey
    ensures BrokerPassKey != AnonymousKey && BrokerPassKey != TopicsKey
    ensures AnonymousKey != TopicsKey
  {
    assert |IpKey| == 2 && |UserKey| == 3 && |AnonymousKey| == 9 && |TopicsKey| == 6;
    assert |PortKey| == 4 && |BrokerPassKey| == 4 && PortKey[1] != BrokerPassKey[1];
  }

  /** `writeCredentials`: the `wifi` namespace first, then `broker`. Every
      getter then reads back what was written (the address as its two cuts),
      and the two boot checks hold exactly when the written fields are
      complete. */
  function WriteCredentials(st: Store, ssid: string, wifiPass: string, addr: string, usr: string,
                            brokerPass: string, anonymous: bool, topics: string): (r: Store)
    ensures GetWifiCredentials(r) == [ssid, wifiPass]
    ensures GetBrokerCredentials(r) == [SplitAddress(addr).0, SplitAddress(addr).1, usr, brokerPass]
    ensures TopicsText(r) == topics
    ensures GetBool(r.broker, AnonymousKey, true) == anonymous
    ensures WifiConfigAvailable(r) <==> ssid != "" && wifiPass != ""
    ensures BrokerConfigAvailable(r) <==>
              SplitAddress(addr).0 != "" && SplitAddress(addr).1 != ""
              && (anonymous || (usr != "" && brokerPass != "" && topics != ""))
  {
    WriteBroker(WriteWifi(st, ssid, wifiPass), addr, usr, brokerPass, anonymous, topics)
  }

  /** `getWifiCredentials`: `[ssid, pass]`, empty text for a missing key. */
  function GetWifiCredentials(st: Store): (r: seq<string>)
    ensures |r| == 2
    ensures forall i :: 0 <= i < 2 ==> var key := [SsidKey, WifiPassKey][i];
              && (key in st.wifi && st.wifi[key].Text? ==> r[i] == st.wifi[key].text)
              && (key !in st.wifi ==> r[i] == "")
  {
    [GetString(st.wifi, SsidKey, ""), GetString(st.wifi, WifiPassKey, "")]
  }

  /** `getBrokerCredentials`: `[ip, port, usr, pass]`. */
  function GetBrokerCredentials(st: Store): (r: seq<string>)
    ensures |r| == 4
    ensures forall i :: 0 <= i < 4 ==> var key := [IpKey, PortKey, UserKey, BrokerPassKey][i];
              && (key in st.broker && st.broker[key].Text? ==> r[i] == st.broker[key].text)
              && (key !in st.broker ==> r[i] == "")
  {
    [GetString(st.broker, IpKey, ""), GetString(st.broker, PortKey, ""),
     GetString(st.broker, UserKey, ""), GetString(st.broker, BrokerPassKey, "")]
  }

  /** The stored colon-delimited topics string. */
  function TopicsText(st: Store): string
  {
    GetString(st.broker, TopicsKey, "")
  }

  /** `getBrokerTopics`: the stored topics string split at every colon. */
  method GetBrokerTopics(st: Store) returns (topics: seq<string>)
    ensures topics == TopicList.Split(TopicsText(st))
    ensures |topics| >= 1
    ensures TopicList.Join(topics) == TopicsText(st)
  {
    topics := TopicList.SplitTopics(TopicsText(st));
  }

  /** `isWiFiConfigAvailable`, branch for branch. */
  function WifiConfigAvailable(st: Store): (r: bool)
    ensures r <==> HasText(st.wifi, SsidKey) && HasText(st.wifi, WifiPassKey)
  {
    if SsidKey in st.wifi && WifiPassKey in st.wifi then
      var ssid := GetString(st.wifi, SsidKey, "");
      var password := GetString(st.wifi, WifiPassKey, "");
      if ssid == "" || password == "" then false else true
    else false
  }

  /** `isBrokerConfigAvailable`, branch for branch. A missing `anonymous`
      key reads as true, and the anonymous branch accepts without looking
      at the topics. */
  function BrokerConfigAvailable(st: Store): (r: bool)
    ensures r <==> HasText(st.broker, IpKey) && HasText(st.broker, PortKey)
                   && (GetBool(st.broker, AnonymousKey, true)
                       || (HasText(st.broker, UserKey) && HasText(st.broker, BrokerPassKey)
                           && HasText(st.broker, TopicsKey)))
    ensures AnonymousKey !in st.broker && HasText(st.broker, IpKey) && HasText(st.broker, PortKey) ==> r
  {
    if IpKey in st.broker && PortKey in st.broker then
      var ip := GetString(st.broker, IpKey, "");
      var port := GetString(st.broker, PortKey, "");
      var usr := GetString(st.broker, UserKey, "");
      var pass := GetString(st.broker, BrokerPassKey, "");
      var anonymous := GetBool(st.broker, AnonymousKey, true);
      var topics := GetString(st.broker, TopicsKey, "");
      if ip == "" || port == "" then false
      else if anonymous then true
      else if usr != "" && pass != "" then topics != ""
      else false
    else false
  }

  /** `clearMemory`: every field overwritten with empty text and the
      anonymous flag with false. The keys remain, with empty values. */
  function ClearMemory(st: Store): (r: Store)
    ensures !WifiConfigAvailable(r) && !BrokerConfigAvailable(r)
    ensures GetWifiCredentials(r) == ["", ""]
    ensures GetBrokerCredentials(r) == ["", "", "", ""]
    ensures TopicsText(r) == ""
  {
    assert IndexOf("", ':') == -1;
    WriteCredentials(st, "", "", "", "", "", false, "")
  }

  /** With a colon among the first 128 characters, the host is the text
      before the first colon and the port the text after it, and the two
      rejoin to the address. */
  lemma SplitAddressAtColon(addr: string, c: nat)
    requires c < 128 && c < |addr|
    requires addr[c] == ':' && ':' !in addr[..c]
    ensures SplitAddress(addr) == (addr[..c], addr[c + 1..])
    ensures SplitAddress(addr).0 + ":" + SplitAddress(addr).1 == addr
  {
    IndexOfFirst(addr, ':', c);
    var k := ToInt8(c);
    assert k == c;
    assert SplitAddress(addr) == (Substring(addr, 0, ToUnsigned(k)), SubstringFrom(addr, ToUnsigned(k + 1)));
    CutAtIndex(addr, c);
    assert addr[..c] + ":" + addr[c + 1..] == addr;
  }

  lemma IndexOfFirst(s: string, ch: char, c: nat)
    requires c < |s| && s[c] == ch && ch !in s[..c]
    ensures IndexOf(s, ch) == c
  {
  }

  /** Without a colon the narrowed index is -1: the clamped cuts then make
      both host and port the whole address. */
  lemma SplitAddressWithoutColon(addr: string)
    requires ':' !in addr
    requires |addr| < UintRange
    ensures SplitAddress(addr) == (addr, addr)
  {
    assert IndexOf(addr, ':') == -1;
    assert ToInt8(-1) == -1;
    assert ToUnsigned(-1) == UintRange - 1 && ToUnsigned(0) == 0;
    assert Substring(addr, 0, UintRange - 1) == addr[0..] == addr;
    assert SubstringFrom(addr, 0) == addr[0..|addr|] == addr;
  }

  /** A first colon at positions 128 to 254 wraps to a negative `int8_t`:
      the host becomes the whole address and the port the empty text. */
  lemma SplitAddressLongHost(addr: string, c: nat)
    requires 128 <= c < 255 && c < |addr|
    requires addr[c] == ':' && ':' !in addr[..c]
    requires |addr| < UintRange - 128
    ensures SplitAddress(addr) == (addr, "")
  {
    IndexOfFirst(addr, ':', c);
    var k := ToInt8(c);
    assert k == c - 256;
    assert SplitAddress(addr) == (Substring(addr, 0, ToUnsigned(k)), SubstringFrom(addr, ToUnsigned(k + 1)));
    CutPastEnd(addr, k);
  }

  /** A first colon at position 255 or later narrows to whatever `int8_t` its
      position wraps to, and the cut lands there instead of at the colon: a
      non-negative value cuts at a character that is not a colon, -1 makes
      both halves the whole address, and any other negative value gives the
      whole address as host and an empty port. */
  lemma SplitAddressFarColon(addr: string, c: nat)
    requires 255 <= c < |addr|
    requires addr[c] == ':' && ':' !in addr[..c]
    requires |addr| < UintRange - 128
    ensures var k := ToInt8(c);
            && (k >= 0 ==> k < c && addr[k] != ':' && SplitAddress(addr) == (addr[..k], addr[k + 1..]))
            && (k == -1 ==> SplitAddress(addr) == (addr, addr))
            && (k < -1 ==> SplitAddress(addr) == (addr, ""))
  {
    IndexOfFirst(addr, ':', c);
    var k := ToInt8(c);
    assert SplitAddress(addr) == (Substring(addr, 0, ToUnsigned(k)), SubstringFrom(addr, ToUnsigned(k + 1)));
    CutAtNarrowed(addr, k);
    if k >= 0 {
      assert k < c by {
        assert c % 256 < 128;
      }
      assert addr[..c][k] == addr[k];
    }
  }

  /** The two clamped cuts at a narrowed index `k`. */
  lemma CutAtNarrowed(addr: string, k: int)
    requires -128 <= k < |addr|
    requires |addr| < UintRange - 128
    ensures var cut := (Substring(addr, 0, ToUnsigned(k)), SubstringFrom(addr, ToUnsigned(k + 1)));
            && (k >= 0 ==> cut == (addr[..k], addr[k + 1..]))
            && (k == -1 ==> cut == (addr, addr))
            && (k < -1 ==> cut == (addr, ""))
  {
    if k >= 0 {
      CutAtIndex(addr, k);
    } else if k < -1 {
      CutPastEnd(addr, k);
    } else {
      ToUnsignedNear(k);
      ToUnsignedNear(k + 1);
    }
  }

  lemma CutAtIndex(addr: string, k: nat)
    requires k < |addr| && k + 1 < UintRange
    ensures Substring(addr, 0, ToUnsigned(k)) == addr[..k]
    ensures SubstringFrom(addr, ToUnsigned(k + 1)) == addr[k + 1..]
  {
    ToUnsignedNear(k);
    ToUnsignedNear(k + 1);
  }

  lemma CutPastEnd(addr: string, k: int)
    requires -128 <= k < -1
    requires |addr| < UintRange - 128
    ensures Substring(addr, 0, ToUnsigned(k)) == addr
    ensures SubstringFrom(addr, ToUnsigned(k + 1)) == ""
  {
    ToUnsignedNear(k);
    ToUnsignedNear(k + 1);
    assert addr[0..] == addr;
  }

  /** Reading the topics back gives pieces free of colons that rejoin to
      the string written, one more piece than there are colons in it. */
  lemma TopicsRoundTrip(st: Store, ssid: string, wifiPass: string, addr: string, usr: string,
                        brokerPass: string, anonymous: bool, topics: string)
    ensures var r := TopicList.Split(TopicsText(WriteCredentials(st, ssid, wifiPass, addr, usr, brokerPass, anonymous, topics)));
            && TopicList.Join(r) == topics
            && TopicList.NoSeparator(r)
            && |r| == TopicList.Separators(topics) + 1
  {
    TopicList.JoinSplit(topics);
    TopicList.SplitHasNoSeparator(topics);
    TopicList.SplitLength(topics);
  }

  /** Clearing twice leaves the same store as clearing once. */
  lemma ClearIdempotent(st: Store)
    ensures ClearMemory(ClearMemory(st)) == ClearMemory(st)
  {
    var once := ClearMemory(st);
    var twice := ClearMemory(once);
    assert twice.wifi == once.wifi;
    assert twice.broker == once.broker;
  }
}

=== FILE: orchestrator.dfy ===
/** Boot-mode decision, task registration and the long-press factory reset
    (`setup`, the task table `t1`-`t4`, `loop` and `LongPressStop` of
    `src/main.cpp`). The Wi-Fi link is abstract: connecting in station mode
    ends with the link up, and access-point mode starts the local form. The
    cooperative scheduler is reduced to its registered, enabled and paused
    flags; due times are not modelled. */
module Orchestrator {
  import opened CredentialStore
  import TopicList
  import Session

  datatype Mode = Operate | Configure

  /** The boot check: run only with a complete Wi-Fi and broker configuration. */
  function DecideMode(st: Store): (m: Mode)
    ensures m == Operate <==>
              && HasText(st.wifi, SsidKey) && HasText(st.wifi, WifiPassKey)
              && HasText(st.broker, IpKey) && HasText(st.broker, PortKey)
              && (GetBool(st.broker, AnonymousKey, true)
                  || (HasText(st.broker, UserKey) && HasText(st.broker, BrokerPassKey)
                      && HasText(st.broker, TopicsKey)))
  {
    if WifiConfigAvailable(st) && BrokerConfigAvailable(st) then Operate else Configure
  }

  datatype Job = Temperature | StatusLed | MqttPump | ButtonPoll

  datatype Task = Task(job: Job, periodMs: nat, registered: bool, enabled: bool)

  datatype Scheduler = Scheduler(paused: bool, tasks: seq<Task>)

  /** `t1`..`t4` as constructed: neither added to the runner nor enabled. */
  const TaskTable: seq<Task> := [
    Task(Temperature, 2000, false, false),
    Task(StatusLed, 2000, false, false),
    Task(MqttPump, 100, false, false),
    Task(ButtonPoll, 50, false, false)
  ]

  /** The runner before `setup` touches it. */
  const Idle: Scheduler := Scheduler(false, TaskTable)

  /** The jobs of the registered and enabled tasks, in registration order. */
  function EnabledJobs(tasks: seq<Task>): (jobs: seq<Job>)
    ensures |jobs| <= |tasks|
    ensures (forall i :: 0 <= i < |tasks| ==> !tasks[i].enabled) ==> jobs == []
    ensures forall j :: j in jobs <==> Ready(tasks, j)
  {
    if |tasks| == 0 then []
    else
      var t := tasks[|tasks| - 1];
      EnabledJobs(tasks[..|tasks| - 1]) + (if t.registered && t.enabled then [t.job] else [])
  }

  /** Some task of the list runs `job` and is both registered and enabled. */
  predicate Ready(tasks: seq<Task>, job: Job)
  {
    exists i :: 0 <= i < |tasks| && tasks[i].job == job && tasks[i].registered && tasks[i].enabled
  }

  /** What one `runner.execute()` pass may run: nothing while paused, and
      otherwise exactly the jobs of the registered and enabled tasks. */
  function Runnable(s: Scheduler): (jobs: seq<Job>)
    ensures s.paused ==> jobs == []
    ensures !s.paused ==> forall j :: j in jobs <==> Ready(s.tasks, j)
  {
    if s.paused then [] else EnabledJobs(s.tasks)
  }

  /** `runner.addTask(t1)`..`addTask(t4)` then `t1.enable()`..`t4.enable()`. */
  function RegisterAndEnable(s: Scheduler): (r: Scheduler)
    ensures r.paused == s.paused && |r.tasks| == |s.tasks|
    ensures forall i :: 0 <= i < |s.tasks| ==>
              r.tasks[i] == s.tasks[i].(registered := true, enabled := true)
  {
    Scheduler(s.paused, seq(|s.tasks|, i requires 0 <= i < |s.tasks| => s.tasks[i].(registered := true, enabled := true)))
  }

  /** `runner.disableAll()`. */
  function DisableAll(s: Scheduler): (r: Scheduler)
    ensures r.paused == s.paused && |r.tasks| == |s.tasks|
    ensures forall i :: 0 <= i < |s.tasks| ==> r.tasks[i] == s.tasks[i].(enabled := false)
  {
    Scheduler(s.paused, seq(|s.tasks|, i requires 0 <= i < |s.tasks| => s.tasks[i].(enabled := false)))
  }

  predicate NoneEnabled(s: Scheduler)
  {
    forall i :: 0 <= i < |s.tasks| ==> !s.tasks[i].enabled
  }

  /** The access point's fixed identity (`SSID`, `PASS` in `main.h`). */
  const ApSsid: string := "Esp32"
  const ApPass: string := "esp32esp32"

  /** The Wi-Fi radio: off, joined to a network as a station (`setupWiFi`
      returns only once connected), or serving its own access point. */
  datatype Link = Down | Station(ssid: string, pass: string) | AccessPoint(ssid: string, pass: string)

  /** `mqttHandler`: null until the operating branch constructs it. */
  datatype Handle = NoHandle | Handle(client: Session.Client, topics: seq<string>, cred: seq<string>)

  datatype BootStep =
    | LoadWifiCredentials | LoadTopics | LoadBrokerCredentials
    | ConstructSession | ConnectLink | ConnectSession | RegisterTasks
    | StartAccessPoint | StartConfigForm

  /** The steps of the operating branch, in source order. */
  const OperateSteps: seq<BootStep> :=
    [LoadWifiCredentials, LoadTopics, LoadBrokerCredentials, ConstructSession, ConnectLink, ConnectSession, RegisterTasks]

  datatype Device = Device(store: Store, link: Link, session: Handle, sched: Scheduler,
                           trace: seq<BootStep>, restarting: bool)

  /** Registering and enabling the task table makes every job runnable, in
      table order. */
  lemma RegisteredTableRunsAll()
    ensures Runnable(RegisterAndEnable(Idle)) == [Temperature, StatusLed, MqttPump, ButtonPoll]
  {
    var t := RegisterAndEnable(Idle).tasks;
    assert t == [
      Task(Temperature, 2000, true, true), Task(StatusLed, 2000, true, true),
      Task(MqttPump, 100, true, true), Task(ButtonPoll, 50, true, true)];
    assert EnabledJobs(t[..1]) == [Temperature] by { assert t[..1][..0] == []; }
    assert EnabledJobs(t[..2]) == [Temperature, StatusLed] by { assert t[..2][..1] == t[..1]; }
    assert EnabledJobs(t[..3]) == [Temperature, StatusLed, MqttPump] by { assert t[..3][..2] == t[..2]; }
    assert t[..4] == t;
  }

  /** Before registration no job is runnable. */
  lemma IdleRunsNothing()
    ensures Runnable(Idle) == []
  {
    assert forall i :: 0 <= i < |Idle.tasks| ==> !Idle.tasks[i].enabled;
  }

  /** The operating branch of `setup()`: load the credentials and topics,
      construct the session, bring the station link up, connect and
      subscribe, then register and enable the four tasks. The outcomes of
      the connect attempts are a parameter; when none is accepted the device
      stays blocked inside `mqtt_setup`, before any task is registered.
      The step trace is a list of fixed labels appended in program order, so
      its order holds by construction; what the contract adds is which
      prefix is reached, and that it depends only on the connect outcomes. */
  method BootOperate(store: Store, client: Session.Client, mac: string, attempts: seq<bool>)
    returns (d: Device)
    ensures d.store == store && !d.restarting
    ensures d.session.Handle?
    ensures d.session.topics == TopicList.Split(TopicsText(store))
    ensures d.session.cred == GetBrokerCredentials(store)
    ensures d.link == Station(GetWifiCredentials(store)[0], GetWifiCredentials(store)[1])
    ensures d.session.client.connected <==> client.connected || true in attempts
    ensures d.session.client.connected ==>
              && d.trace == OperateSteps
              && |d.sched.tasks| == |TaskTable|
              && (forall i :: 0 <= i < |TaskTable| ==>
                    d.sched.tasks[i] == TaskTable[i].(registered := true, enabled := true))
              && Runnable(d.sched) == [Temperature, StatusLed, MqttPump, ButtonPoll]
    ensures !d.session.client.connected ==>
              d.trace == OperateSteps[..5] && d.sched == Idle && Runnable(d.sched) == []
  {
    var wifi := GetWifiCredentials(store);
    var topics := GetBrokerTopics(store);
    var cred := GetBrokerCredentials(store);
    var trace := [LoadWifiCredentials, LoadTopics, LoadBrokerCredentials, ConstructSession];
    var link := Station(wifi[0], wifi[1]);
    trace := trace + [ConnectLink];
    var c := OpenSession(client, cred, topics, mac, attempts);
    assert trace == OperateSteps[..5];
    var sched := Idle;
    if c.connected {
      trace := trace + [ConnectSession, RegisterTasks];
      assert trace == OperateSteps;
      sched := RegisterAndEnable(sched);
      RegisteredTableRunsAll();
    } else {
      IdleRunsNothing();
    }
    d := Device(store, link, Handle(c, topics, cred), sched, trace, false);
  }

  /** `mqttHandler->mqtt_setup()`, seen from `setup()`: whether the session
      ends up connected. */
  method OpenSession(client: Session.Client, cred: seq<string>, topics: seq<string>, mac: string, attempts: seq<bool>)
    returns (c: Session.Client)
    requires |cred| >= 2
    ensures c.connected <==> client.connected || true in attempts
  {
    var tries;
    c, tries := Session.MqttSetup(client, cred, topics, mac, attempts);
  }

  /** `setup()` from the mode decision on: the operating branch with a
      complete configuration, otherwise the access point and the local
      configuration form, with no task registered. */
  method Boot(store: Store, client: Session.Client, mac: string, attempts: seq<bool>)
    returns (d: Device, mode: Mode)
    ensures mode == DecideMode(store)
    ensures mode == Operate <==> WifiConfigAvailable(store) && BrokerConfigAvailable(store)
    ensures d.store == store && !d.restarting
    ensures mode == Configure ==>
              && d.link == AccessPoint(ApSsid, ApPass)
              && d.session == NoHandle
              && d.trace == [StartAccessPoint, StartConfigForm]
              && d.sched == Idle
              && Runnable(d.sched) == []
    ensures mode == Operate ==>
              && d.session.Handle?
              && d.session.topics == TopicList.Split(TopicsText(store))
              && d.session.cred == GetBrokerCredentials(store)
              && d.link == Station(GetWifiCredentials(store)[0], GetWifiCredentials(store)[1])
              && (d.session.client.connected <==> client.connected || true in attempts)
              && (d.session.client.connected ==>
                    d.trace == OperateSteps && Runnable(d.sched) == [Temperature, StatusLed, MqttPump, ButtonPoll])
              && (!d.session.client.connected ==> d.trace == OperateSteps[..5] && d.sched == Idle)
    ensures ButtonPoll in Runnable(d.sched) ==> mode == Operate && d.session.Handle? && d.session.client.connected
  {
    if WifiConfigAvailable(store) && BrokerConfigAvailable(store) {
      mode := Operate;
      d := BootOperate(store, client, mac, attempts);
    } else {
      mode := Configure;
      d := Device(store, AccessPoint(ApSsid, ApPass), NoHandle, Idle, [StartAccessPoint, StartConfigForm], false);
    }
  }

  /** `runner.pause()`: the tasks keep their flags, but no pass runs any. */
  function Pause(s: Scheduler): (r: Scheduler)
    ensures r.paused && r.tasks == s.tasks
    ensures Runnable(r) == []
  {
    s.(paused := true)
  }

  /** `LongPressStop`, one device state per step: pause the runner, disable
      every task, close the broker session, clear the store, drop the Wi-Fi
      link, restart. Each state is the one before it with exactly one
      component changed, so every component changes only at its own step.
      Reached only from the button job, which runs only once a session
      exists. */
  function LongPressStop(d: Device): (states: seq<Device>)
    requires d.session.Handle?
    ensures |states| == 6
    ensures states[0] == d.(sched := Pause(d.sched))
    ensures states[1] == states[0].(sched := DisableAll(Pause(d.sched)))
    ensures states[2] == states[1].(session := d.session.(client := Session.Close(d.session.client)))
    ensures states[3] == states[2].(store := ClearMemory(d.store))
    ensures states[4] == states[3].(link := Down)
    ensures states[5] == states[4].(restarting := true)
  {
    var paused := d.(sched := Pause(d.sched));
    var disabled := paused.(sched := DisableAll(paused.sched));
    var closed := disabled.(session := d.session.(client := Session.Close(d.session.client)));
    var cleared := closed.(store := ClearMemory(d.store));
    var dropped := cleared.(link := Down);
    var restarted := dropped.(restarting := true);
    var states := [paused, disabled, closed, cleared, dropped, restarted];
    assert states[0] == paused && states[1] == disabled && states[2] == closed;
    assert states[3] == cleared && states[4] == dropped && states[5] == restarted;
    states
  }

  /** What the stop sequence guarantees at each step: from the first step on
      nothing runs, from the second no task is enabled, from the third the
      session is closed, from the fourth the store is cleared, and the
      restart finds the configuration incomplete. */
  lemma LongPressStopSteps(d: Device)
    requires d.session.Handle?
    ensures var states := LongPressStop(d);
            && (forall k :: 0 <= k < 6 ==> states[k].sched.paused && Runnable(states[k].sched) == [])
            && (forall k :: 1 <= k < 6 ==> states[k].sched == DisableAll(states[0].sched) && NoneEnabled(states[k].sched))
            && (forall k :: 2 <= k < 6 ==>
                  && states[k].session.client == Session.Close(d.session.client)
                  && !states[k].session.client.connected)
            && (forall k :: 0 <= k < 3 ==> states[k].store == d.store)
            && (forall k :: 3 <= k < 6 ==> states[k].store == ClearMemory(d.store))
            && (forall k :: 0 <= k < 4 ==> states[k].link == d.link)
            && (forall k :: 0 <= k < 5 ==> states[k].restarting == d.restarting)
            && DecideMode(states[5].store) == Configure
  {
    var states := LongPressStop(d);
    var disabled := DisableAll(Pause(d.sched));
    assert disabled.paused && NoneEnabled(disabled) && Runnable(disabled) == [];
    assert forall k :: 1 <= k < 6 ==> states[k].sched == disabled;
    assert !Session.Close(d.session.client).connected;
    assert DecideMode(ClearMemory(d.store)) == Configure;
  }

  /** The factory reset followed by the restart it ends with: the next boot
      always finds the configuration incomplete and enters Configure mode. */
  method ResetAndReboot(d: Device, client: Session.Client, mac: string, attempts: seq<bool>)
    returns (next: Device, mode: Mode)
    requires d.session.Handle?
    ensures mode == Configure
    ensures next.store == ClearMemory(d.store)
    ensures next.link == AccessPoint(ApSsid, ApPass) && Runnable(next.sched) == []
  {
    var states := LongPressStop(d);
    next, mode := Boot(states[5].store, client, mac, attempts);
  }
}

=== FILE: router.dfy ===
/** The inbound message handler (`MqttHandler::callback`): a pure map from
    a received topic and payload, and the configured topic list, to the
    actuator and display effects it causes. The route is chosen by list
    position: index 1 drives the relay on pin 27, index 2 the relay on pin
    26, index 3 the display; index 0 is the telemetry topic and routes
    nowhere. The three checks are independent `if`s, so one topic may fire
    several routes, always in index order. */
module Router {

  newtype byte = x: int | 0 <= x < 256

  datatype Level = Low | High

  datatype Effect =
    | DriveOutput(pin: nat, level: Level)  // `digitalWrite(pin, level)`
    | ShowText(text: string)               // `disp.print(text)`

  /** Relay pins; the relays are active-low, so "on" drives LOW. */
  const PinA: nat := 27
  const PinB: nat := 26

  const OnCommand: string := "on"
  const OffCommand: string := "off"

  /** The payload copied byte by byte into the message text. */
  function DecodePayload(payload: seq<byte>): (msg: string)
    ensures |msg| == |payload|
    ensures forall i :: 0 <= i < |payload| ==> msg[i] as int == payload[i] as int
  {
    if |payload| == 0 then ""
    else DecodePayload(payload[..|payload| - 1]) + [payload[|payload| - 1] as int as char]
  }

  /** Text whose characters all fit in a byte, as bytes: the inverse of
      `DecodePayload`. */
  function EncodeText(msg: string): (payload: seq<byte>)
    requires forall i :: 0 <= i < |msg| ==> msg[i] as int < 256
    ensures |payload| == |msg|
    ensures forall i :: 0 <= i < |msg| ==> payload[i] as int == msg[i] as int
  {
    if |msg| == 0 then []
    else EncodeText(msg[..|msg| - 1]) + [msg[|msg| - 1] as int as byte]
  }

  /** Decoding is one-to-one and loses nothing. */
  lemma DecodeEncode(payload: seq<byte>)
    ensures EncodeText(DecodePayload(payload)) == payload
  {
  }

  lemma EncodeDecode(msg: string)
    requires forall i :: 0 <= i < |msg| ==> msg[i] as int < 256
    ensures DecodePayload(EncodeText(msg)) == msg
  {
  }

  /** `device(state, pin)`: `digitalWrite(pin, state)`. */
  function Device(state: bool, pin: nat): (e: Effect)
    ensures e.DriveOutput? && e.pin == pin
    ensures e.level == High <==> state
  {
    DriveOutput(pin, if state then High else Low)
  }

  /** A relay route: "on" drives the pin LOW, "off" drives it HIGH, and any
      other text (compared exactly, so "ON" too) does nothing. */
  function Switch(msg: string, pin: nat): seq<Effect>
  {
    if msg == OnCommand then [Device(false, pin)]
    else if msg == OffCommand then [Device(true, pin)]
    else []
  }

  /** Whether entry `i` of the topic list exists and equals `topic`. */
  predicate Matches(topics: seq<string>, i: nat, topic: string)
  {
    i < |topics| && topic == topics[i]
  }

  predicate IsCommand(msg: string)
  {
    msg == OnCommand || msg == OffCommand
  }

  /** Position of an effect's route in the handler: 1, 2 or 3. */
  function RouteIndex(e: Effect): nat
  {
    match e
    case DriveOutput(pin, _) => if pin == PinA then 1 else 2
    case ShowText(_) => 3
  }

  /** The routing checks of the handler on the decoded message text, with
      each guard testing that the entry it reads exists. */
  function Route(topic: string, msg: string, topics: seq<string>): (effects: seq<Effect>)
    ensures
      && (DriveOutput(PinA, Low) in effects <==> Matches(topics, 1, topic) && msg == OnCommand)
      && (DriveOutput(PinA, High) in effects <==> Matches(topics, 1, topic) && msg == OffCommand)
      && (DriveOutput(PinB, Low) in effects <==> Matches(topics, 2, topic) && msg == OnCommand)
      && (DriveOutput(PinB, High) in effects <==> Matches(topics, 2, topic) && msg == OffCommand)
      && (ShowText(msg) in effects <==> Matches(topics, 3, topic))
      && (forall e :: e in effects ==> e == ShowText(msg) || (e.DriveOutput? && (e.pin == PinA || e.pin == PinB)))
      && (effects == [] <==> !(Matches(topics, 1, topic) && IsCommand(msg))
                             && !(Matches(topics, 2, topic) && IsCommand(msg))
                             && !Matches(topics, 3, topic))
    ensures forall i, j :: 0 <= i < j < |effects| ==> RouteIndex(effects[i]) < RouteIndex(effects[j])
  {
    (if Matches(topics, 1, topic) then Switch(msg, PinA) else [])
    + (if Matches(topics, 2, topic) then Switch(msg, PinB) else [])
    + (if Matches(topics, 3, topic) then [ShowText(msg)] else [])
  }

  /** The handler: decode the payload, then route it. Only a two- or
      three-byte payload can be a relay command, and the display shows the
      payload byte for byte. */
  function Callback(topic: string, payload: seq<byte>, topics: seq<string>): (effects: seq<Effect>)
    ensures (exists e :: e in effects && e.DriveOutput?) ==> |payload| == 2 || |payload| == 3
    ensures forall e :: e in effects && e.ShowText? ==>
              |e.text| == |payload| && forall i :: 0 <= i < |payload| ==> e.text[i] as int == payload[i] as int
  {
    Route(topic, DecodePayload(payload), topics)
  }

  /** A message sent as bytes is routed as the text it encodes. */
  lemma CallbackRoutesText(topic: string, msg: string, topics: seq<string>)
    requires forall i :: 0 <= i < |msg| ==> msg[i] as int < 256
    ensures Callback(topic, EncodeText(msg), topics) == Route(topic, msg, topics)
  {
    EncodeDecode(msg);
  }

  /** The topic list's telemetry entry routes nowhere unless it also equals
      a later entry. */
  lemma TelemetryTopicIgnored(topic: string, msg: string, topics: seq<string>)
    requires Matches(topics, 0, topic)
    requires !Matches(topics, 1, topic) && !Matches(topics, 2, topic) && !Matches(topics, 3, topic)
    ensures Route(topic, msg, topics) == []
  {
  }

  /** One topic configured in every routed position fires all three routes,
      relay A, then relay B, then the display. */
  lemma SharedTopicFiresAll(topic: string, topics: seq<string>)
    requires |topics| >= 4 && topics[1] == topic && topics[2] == topic && topics[3] == topic
    ensures Route(topic, OffCommand, topics)
            == [DriveOutput(PinA, High), DriveOutput(PinB, High), ShowText(OffCommand)]
  {
  }

  // ----- The handler as written -----

  /** The handler's outcome as written: either it runs to the end, or it
      reads `topic_list[index]` when the list has only `size` entries, after
      the effects `before` have already happened. */
  datatype Outcome =
    | Effects(effects: seq<Effect>)
    | ReadPastEnd(index: nat, size: nat, before: seq<Effect>)

  /** The guard as written before reading entry `i`: `size() > i - 1`. */
  predicate GuardAsWritten(topics: seq<string>, i: nat)
  {
    |topics| > i - 1
  }

  /** The handler as written: a guard that passes for a list of exactly `i`
      entries still reads `topic_list[i]`, which is past the end. Everything
      the earlier checks did stays done, and that is exactly what the
      corrected handler does on the same list. */
  function RouteAsWritten(topic: string, msg: string, topics: seq<string>): (r: Outcome)
    ensures r.ReadPastEnd? ==> r.index == r.size == |topics| && GuardAsWritten(topics, r.index)
    ensures r.ReadPastEnd? ==> r.before == Route(topic, msg, topics)
  {
    if GuardAsWritten(topics, 1) && 1 >= |topics| then ReadPastEnd(1, |topics|, [])
    else
      var first := if GuardAsWritten(topics, 1) && topic == topics[1] then Switch(msg, PinA) else [];
      if GuardAsWritten(topics, 2) && 2 >= |topics| then ReadPastEnd(2, |topics|, first)
      else
        var second := if GuardAsWritten(topics, 2) && topic == topics[2] then Switch(msg, PinB) else [];
        if GuardAsWritten(topics, 3) && 3 >= |topics| then ReadPastEnd(3, |topics|, first + second)
        else
          var third := if GuardAsWritten(topics, 3) && topic == topics[3] then [ShowText(msg)] else [];
          Effects(first + second + third)
  }

  /** The handler as written reads past the end for every message exactly
      when the list has one, two or three entries; otherwise it agrees with
      the corrected handler. */
  lemma RouteAsWrittenReadsPastEnd(topic: string, msg: string, topics: seq<string>)
    ensures RouteAsWritten(topic, msg, topics).ReadPastEnd? <==> 1 <= |topics| <= 3
    ensures |topics| == 0 || |topics| >= 4 ==>
              RouteAsWritten(topic, msg, topics) == Effects(Route(topic, msg, topics))
  {
  }

  /** A single configured topic (the telemetry one) and any message on it:
      the first guard passes and `topic_list[1]` is read past the end. */
  lemma SingleTopicCounterexample()
    ensures RouteAsWritten("temp", "21", ["temp"]) == ReadPastEnd(1, 1, [])
  {
  }

  /** Two topics and "on" on the second: relay A is switched on first, then
      the second guard passes and `topic_list[2]` is read past the end. */
  lemma TwoTopicCounterexample()
    ensures RouteAsWritten("lamp", "on", ["temp", "lamp"]) == ReadPastEnd(2, 2, [DriveOutput(PinA, Low)])
  {
  }

  /** Route on the topic list t0..t3: "off" on t1 switches the first relay
      off when t1 is not also a later entry. */
  lemma OffOnSecondTopic(t0: string, t1: string, t2: string, t3: string)
    requires t1 != t2 && t1 != t3
    ensures Route(t1, OffCommand, [t0, t1, t2, t3]) == [DriveOutput(PinA, High)]
  {
  }

  /** Concrete cases: with list t0..t3, "on" on t1 switches relay A on; "ON" does nothing; any text on t3 is shown; an
      unknown topic does nothing. */
  lemma RouteExamples()
    ensures Route("t1", "on", ["t0", "t1", "t2", "t3"]) == [DriveOutput(PinA, Low)]
    ensures Route("t1", "ON", ["t0", "t1", "t2", "t3"]) == []
    ensures Route("t3", "HELLO", ["t0", "t1", "t2", "t3"]) == [ShowText("HELLO")]
    ensures Route("unknown", "on", ["t0", "t1", "t2", "t3"]) == []
  {
  }
}

=== FILE: sequences.dfy ===
/** Element-type-generic facts about sequence concatenation. Proving them
    once, away from any recursive definition over strings, keeps those
    definitions' unfoldings out of the equalities the other proofs need. */
module Sequences {

  lemma ConcatSlices<T>(x: seq<T>, y: seq<T>)
    ensures (x + y)[..|x|] == x && (x + y)[|x|..] == y
  {
  }

  lemma ConcatAssociative<T>(x: seq<T>, y: seq<T>, z: seq<T>)
    ensures (x + y) + z == x + (y + z)
  {
  }

  /** A non-empty sequence is its front followed by its last element, also
      when something precedes it. */
  lemma DropLast<T>(a: seq<T>, b: seq<T>)
    requires |b| > 0
    ensures a + b == (a + b[..|b| - 1]) + [b[|b| - 1]]
    ensures b[..|b| - 1] + [b[|b| - 1]] == b
  {
  }
}

=== FILE: session.dfy ===
/** The broker session (`MqttHandler` minus the routing): connect with
    retry at boot, one reconnect attempt per pump, telemetry publish and
    disconnect. The broker client (`PubSubClient`) is abstract: it is a
    `connected` flag plus the trace of calls made on it, and the outcome of
    each connect attempt is supplied by the caller. */
module Session {
  import opened Router
  import opened ArduinoText
  import opened Sequences

  /** Prefix of the client identifier; the board's MAC address follows. */
  const ClientIdPrefix: string := "esp32-client-"

  function ClientId(mac: string): (id: string)
    ensures |id| == |ClientIdPrefix| + |mac|
    ensures id[..|ClientIdPrefix|] == ClientIdPrefix && id[|ClientIdPrefix|..] == mac
  {
    ClientIdPrefix + mac
  }

  datatype ClientOp =
    | SetServer(host: string, port: nat)
    | SetCallback
    | Connect(clientId: string, accepted: bool)
    | Subscribe(topic: string)
    | Pump
    | Publish(topic: string, payload: string)
    | Disconnect

  datatype Client = Client(connected: bool, ops: seq<ClientOp>)

  datatype Message = Message(topic: string, payload: seq<byte>)

  /** The port handed to `setServer`: `cred[1].toInt()` narrowed to
      `uint16_t`. */
  function Port(text: string): (port: nat)
    ensures port < 0x1_0000
  {
    ToUint16(Atol(text))
  }

  /** A port written in decimal below 65536 reaches the client unchanged. */
  lemma PortOfDecimal(text: string)
    requires forall i :: 0 <= i < |text| ==> IsDigit(text[i])
    requires DecimalValue(text) < 0x1_0000
    ensures Port(text) == DecimalValue(text)
  {
    AtolOfDigits(text);
    ToUint16OfSmall(DecimalValue(text));
  }

  lemma ToUint16OfSmall(x: int)
    requires 0 <= x < 0x1_0000
    ensures ToUint16(x) == x
  {
  }

  /** One subscription per topic, in list order. */
  function Subscriptions(topics: seq<string>): (ops: seq<ClientOp>)
    ensures |ops| == |topics|
    ensures forall i :: 0 <= i < |topics| ==> ops[i] == Subscribe(topics[i])
  {
    if |topics| == 0 then [] else Subscriptions(topics[..|topics| - 1]) + [Subscribe(topics[|topics| - 1])]
  }

  /** `n` refused connect attempts. */
  function Refusals(mac: string, n: nat): (ops: seq<ClientOp>)
    ensures |ops| == n
    ensures forall i :: 0 <= i < n ==> ops[i] == Connect(ClientId(mac), false)
  {
    if n == 0 then [] else Refusals(mac, n - 1) + [Connect(ClientId(mac), false)]
  }

  datatype OpKind = SetupKind | ConnectKind | SubscribeKind | PumpKind | PublishKind | DisconnectKind

  function KindOf(op: ClientOp): OpKind
  {
    match op
    case SetServer(_, _) => SetupKind
    case SetCallback => SetupKind
    case Connect(_, _) => ConnectKind
    case Subscribe(_) => SubscribeKind
    case Pump => PumpKind
    case Publish(_, _) => PublishKind
    case Disconnect => DisconnectKind
  }

  /** The calls of one kind, in the order they were made. */
  function Keep(ops: seq<ClientOp>, kind: OpKind): (r: seq<ClientOp>)
    ensures |r| <= |ops|
    ensures forall i :: 0 <= i < |r| ==> KindOf(r[i]) == kind
  {
    if |ops| == 0 then []
    else Keep(ops[..|ops| - 1], kind) + (if KindOf(ops[|ops| - 1]) == kind then [ops[|ops| - 1]] else [])
  }

  /** The effects of the inbound messages a pump delivers, in arrival order. */
  function Dispatch(inbound: seq<Message>, topics: seq<string>): (effects: seq<Effect>)
    ensures |effects| <= 3 * |inbound|
  {
    if |inbound| == 0 then []
    else
      var m := inbound[|inbound| - 1];
      Dispatch(inbound[..|inbound| - 1], topics) + Callback(m.topic, m.payload, topics)
  }

  /** A single delivered message has exactly the effects of one `callback`. */
  lemma DispatchSingle(m: Message, topics: seq<string>)
    ensures Dispatch([m], topics) == Callback(m.topic, m.payload, topics)
  {
    assert [m][..0] == [];
  }

  /** Delivering two batches one after the other has the effects of the
      first batch followed by those of the second: messages are handled one
      at a time, in arrival order, independently of each other. */
  lemma {:induction false} DispatchAppend(a: seq<Message>, b: seq<Message>, topics: seq<string>)
    ensures Dispatch(a + b, topics) == Dispatch(a, topics) + Dispatch(b, topics)
  {
    if |b| == 0 {
      assert a + b == a;
    } else {
      var b' := b[..|b| - 1];
      var m := b[|b| - 1];
      DropLast(a, b);
      var x, y, c := Dispatch(a, topics), Dispatch(b', topics), Callback(m.topic, m.payload, topics);
      DispatchAppend(a, b', topics);
      DispatchSnoc(a + b', m, topics);
      DispatchSnoc(b', m, topics);
      assert Dispatch(a + b, topics) == (x + y) + c;
      assert Dispatch(b, topics) == y + c;
      ConcatAssociative(x, y, c);
    }
  }

  lemma DispatchSnoc(inbound: seq<Message>, m: Message, topics: seq<string>)
    ensures Dispatch(inbound + [m], topics) == Dispatch(inbound, topics) + Callback(m.topic, m.payload, topics)
  {
    assert (inbound + [m])[..|inbound|] == inbound;
  }

  /** The result of one pump: the client afterwards and the effects of the
      messages it delivered. */
  datatype PumpResult = PumpResult(client: Client, effects: seq<Effect>)

  /** `mqtt_loop`: when disconnected, one connect attempt with the
      board's client id and, if accepted, one subscription per topic; in
      every case one `loop()` call at the end, which delivers the inbound
      messages only on a live connection. */
  function MqttLoop(c: Client, mac: string, topics: seq<string>, accepted: bool, inbound: seq<Message>): (r: PumpResult)
    ensures |r.client.ops| > |c.ops| && r.client.ops[..|c.ops|] == c.ops
    ensures r.client.ops[|r.client.ops| - 1] == Pump
    ensures r.client.ops[|c.ops|..] ==
              (if c.connected then []
               else [Connect(ClientId(mac), accepted)] + (if accepted then Subscriptions(topics) else []))
              + [Pump]
    ensures r.client.connected <==> c.connected || accepted
    ensures r.effects == if r.client.connected then Dispatch(inbound, topics) else []
  {
    var added := Attempt(c.connected, mac, topics, accepted) + [Pump];
    var after := Client(c.connected || accepted, c.ops + added);
    ConcatSlices(c.ops, added);
    AttemptCalls(c.connected, mac, topics, accepted);
    PumpResult(after, if after.connected then Dispatch(inbound, topics) else [])
  }

  /** The calls `mqtt_loop` makes before `loop()`: none on a live
      connection; otherwise one connect with the board's client id, followed
      by one subscription per topic only when the broker accepts it. */
  function Attempt(connected: bool, mac: string, topics: seq<string>, accepted: bool): (ops: seq<ClientOp>)
    ensures connected ==> ops == []
    ensures !connected ==> |ops| >= 1 && ops[0] == Connect(ClientId(mac), accepted)
    ensures !connected ==> |ops| == 1 + (if accepted then |topics| else 0)
    ensures !connected ==> forall i :: 1 <= i < |ops| ==> ops[i] == Subscribe(topics[i - 1])
  {
    if connected then []
    else if accepted then [Connect(ClientId(mac), true)] + Subscriptions(topics)
    else [Connect(ClientId(mac), false)]
  }

  /** The attempt, spelled out as one sequence. */
  lemma AttemptCalls(connected: bool, mac: string, topics: seq<string>, accepted: bool)
    ensures Attempt(connected, mac, topics, accepted) ==
      if connected then []
      else [Connect(ClientId(mac), accepted)] + (if accepted then Subscriptions(topics) else [])
  {
  }

  /** The `for (topic : topic_list) subscribe(topic)` loop. */
  method SubscribeAll(c: Client, topics: seq<string>) returns (r: Client)
    ensures r.connected == c.connected
    ensures r.ops == c.ops + Subscriptions(topics)
  {
    r := c;
    var i := 0;
    while i < |topics|
      invariant 0 <= i <= |topics|
      invariant r.connected == c.connected
      invariant r.ops == c.ops + Subscriptions(topics[..i])
    {
      assert topics[..i + 1][..i] == topics[..i];
      r := r.(ops := r.ops + [Subscribe(topics[i])]);
      i := i + 1;
    }
    assert topics[..i] == topics;
  }

  /** `mqtt_setup`: point the client at `cred[0]`:`cred[1]`, install the
      handler, then attempt to connect until an attempt is accepted,
      subscribing to every topic right after the accepted one. The source
      retries for ever; here the attempts are the given outcomes, and when
      they run out without success the client is still disconnected (the
      device is still blocked in this loop). */
  method MqttSetup(c: Client, cred: seq<string>, topics: seq<string>, mac: string, attempts: seq<bool>)
    returns (r: Client, tries: nat)
    requires |cred| >= 2
    ensures tries <= |attempts|
    ensures r.connected <==> c.connected || true in attempts
    ensures var setup := c.ops + [SetServer(cred[0], Port(cred[1])), SetCallback];
      && (c.connected ==> tries == 0 && r.ops == setup)
      && (!c.connected && r.connected ==>
            1 <= tries && attempts[tries - 1]
            && r.ops == setup + Refusals(mac, tries - 1) + [Connect(ClientId(mac), true)] + Subscriptions(topics))
      && (!r.connected ==> tries == |attempts| && r.ops == setup + Refusals(mac, tries))
    ensures forall k :: 0 <= k < tries - 1 ==> !attempts[k]
  {
    var setup := c.ops + [SetServer(cred[0], Port(cred[1])), SetCallback];
    r := Client(c.connected, setup);
    tries := 0;
    while !r.connected && tries < |attempts|
      invariant tries <= |attempts|
      invariant c.connected ==> tries == 0 && r.ops == setup && r.connected
      invariant !c.connected && !r.connected ==>
                  r.ops == setup + Refusals(mac, tries) && forall k :: 0 <= k < tries ==> !attempts[k]
      invariant !c.connected && r.connected ==>
                  1 <= tries && attempts[tries - 1] && (forall k :: 0 <= k < tries - 1 ==> !attempts[k])
                  && r.ops == setup + Refusals(mac, tries - 1) + [Connect(ClientId(mac), true)] + Subscriptions(topics)
    {
      var accepted := attempts[tries];
      tries := tries + 1;
      if accepted {
        r := Client(true, r.ops + [Connect(ClientId(mac), true)]);
        r := SubscribeAll(r, topics);
      } else {
        r := Client(false, r.ops + [Connect(ClientId(mac), false)]);
      }
    }
  }

  /** `mqtt_send_temp`, topic choice only: one publish, always to the first
      topic of the list, whatever the connection state (a publish on a dead
      connection is dropped by the client). */
  function SendTemp(c: Client, topics: seq<string>, reading: string): (r: Client)
    requires |topics| >= 1
    ensures r.connected == c.connected
    ensures |r.ops| == |c.ops| + 1 && r.ops[..|c.ops|] == c.ops
    ensures Keep(r.ops[|c.ops|..], PublishKind) == [Publish(topics[0], reading)]
  {
    var r := c.(ops := c.ops + [Publish(topics[0], reading)]);
    assert r.ops[|c.ops|..] == [Publish(topics[0], reading)];
    r
  }

  /** `mqtt_disconnect`. */
  function Close(c: Client): (r: Client)
    ensures !r.connected
    ensures |r.ops| == |c.ops| + 1 && r.ops[..|c.ops|] == c.ops && r.ops[|c.ops|] == Disconnect
  {
    Client(false, c.ops + [Disconnect])
  }
}

=== FILE: topic_list.dfy ===
/** The colon-delimited topic list. The broker namespace keeps all topics in
    one string; reading it back splits that string at every separator and
    keeps empty pieces, so the list position of each topic (which decides
    how inbound messages are routed) is exactly its field number in the
    stored string. */
module TopicList {

  import opened Sequences

  const Separator: char := ':'

  /** The pieces of `s` between separators, read left to right: each
      separator closes the current piece and opens an empty one, and every
      other character extends the current piece. */
  function Split(s: string): (r: seq<string>)
    ensures |r| >= 1
  {
    if |s| == 0 then [""]
    else
      var init := Split(s[..|s| - 1]);
      var c := s[|s| - 1];
      if c == Separator then init + [""]
      else ExtendLastPiece(init, [c])
  }

  /** `pieces` with `tail` appended to its last piece. */
  function ExtendLastPiece(pieces: seq<string>, tail: string): (r: seq<string>)
    requires |pieces| >= 1
    ensures |r| == |pieces|
  {
    pieces[..|pieces| - 1] + [pieces[|pieces| - 1] + tail]
  }

  /** Only the last piece changes, and it gains `tail` at its end. */
  lemma ExtendLastPieceParts(pieces: seq<string>, tail: string)
    requires |pieces| >= 1
    ensures var r := ExtendLastPiece(pieces, tail);
            r[..|r| - 1] == pieces[..|pieces| - 1] && r[|r| - 1] == pieces[|pieces| - 1] + tail
  {
    ConcatSlices(pieces[..|pieces| - 1], [pieces[|pieces| - 1] + tail]);
  }

  /** The pieces written out with a separator between neighbours. */
  function Join(pieces: seq<string>): string
    requires |pieces| >= 1
  {
    if |pieces| == 1 then pieces[0]
    else Join(pieces[..|pieces| - 1]) + [Separator] + pieces[|pieces| - 1]
  }

  predicate NoSeparator(pieces: seq<string>)
  {
    forall i :: 0 <= i < |pieces| ==> Separator !in pieces[i]
  }

  /** The loop of `getBrokerTopics`: walk the string once, and at every
      separator and at the end emit the text since the previous cut. */
  method SplitTopics(tp: string) returns (topics: seq<string>)
    ensures topics == Split(tp)
    ensures Join(topics) == tp
  {
    topics := [];
    var start := 0;
    var i := 0;
    while i <= |tp|
      invariant 0 <= i <= |tp| + 1
      invariant i <= |tp| ==> start <= i && Split(tp[..i]) == topics + [tp[start..i]]
      invariant i == |tp| + 1 ==> topics == Split(tp)
    {
      if i == |tp| || tp[i] == Separator {
        if i < |tp| {
          SplitCut(tp, i);
        } else {
          assert tp[..i] == tp;
        }
        topics := topics + [tp[start..i]];
        start := i + 1;
      } else {
        SplitExtend(tp, i, start, topics);
      }
      i := i + 1;
    }
    JoinSplit(tp);
  }

  /** A separator at `i` closes the current piece of the prefix. */
  lemma SplitCut(tp: string, i: nat)
    requires i < |tp| && tp[i] == Separator
    ensures Split(tp[..i + 1]) == Split(tp[..i]) + [""]
    ensures tp[i + 1..i + 1] == ""
  {
    assert tp[..i + 1][..i] == tp[..i];
  }

  /** Any other character at `i` extends the current piece of the prefix. */
  lemma SplitExtend(tp: string, i: nat, start: nat, topics: seq<string>)
    requires start <= i < |tp| && tp[i] != Separator
    requires Split(tp[..i]) == topics + [tp[start..i]]
    ensures Split(tp[..i + 1]) == topics + [tp[start..i + 1]]
  {
    var before := topics + [tp[start..i]];
    assert tp[..i + 1][..i] == tp[..i];
    assert before[..|before| - 1] == topics;
    assert tp[start..i] + [tp[i]] == tp[start..i + 1];
  }

  /** No piece contains the separator. */
  lemma {:induction false} SplitHasNoSeparator(s: string)
    ensures NoSeparator(Split(s))
  {
    if |s| > 0 {
      SplitHasNoSeparator(s[..|s| - 1]);
    }
  }

  /** Joining the pieces gives back the stored string exactly. */
  lemma {:induction false} JoinSplit(s: string)
    ensures Join(Split(s)) == s
  {
    if |s| > 0 {
      var s' := s[..|s| - 1];
      var c := s[|s| - 1];
      JoinSplit(s');
      SplitSnoc(s', c);
      JoinSnocChar(Split(s'), s', c);
      DropLast([], s);
      assert s' + [c] == s;
    }
  }

  /** One more character on the text is one more character on the join. */
  lemma JoinSnocChar(init: seq<string>, s: string, c: char)
    requires |init| >= 1 && Join(init) == s
    ensures Join(if c == Separator then init + [""] else ExtendLastPiece(init, [c])) == s + [c]
  {
    if c == Separator {
      JoinSnoc(init, "");
      assert Join(init) + [Separator] + "" == s + [c];
    } else {
      JoinExtendLast(init, [c]);
    }
  }

  /** One more piece joins on after one more separator. */
  lemma JoinSnoc(pieces: seq<string>, last: string)
    requires |pieces| >= 1
    ensures Join(pieces + [last]) == Join(pieces) + [Separator] + last
  {
    var ext := pieces + [last];
    assert ext[..|ext| - 1] == pieces;
    assert ext[|ext| - 1] == last;
  }

  /** Appending text to the last piece appends it to the joined string. */
  lemma JoinExtendLast(pieces: seq<string>, tail: string)
    requires |pieces| >= 1
    ensures Join(ExtendLastPiece(pieces, tail)) == Join(pieces) + tail
  {
    var n := |pieces|;
    ExtendLastPieceParts(pieces, tail);
    if n > 1 {
      ConcatAssociative(Join(pieces[..n - 1]) + [Separator], pieces[n - 1], tail);
    }
  }

  /** Splitting text with no separator in it only extends the last piece. */
  lemma {:induction false} SplitAppendPlain(a: string, b: string)
    requires Separator !in b
    ensures Split(a + b) == ExtendLastPiece(Split(a), b)
  {
    var p := Split(a);
    var n := |p|;
    if |b| == 0 {
      assert a + b == a;
      assert p[n - 1] + b == p[n - 1];
      assert p[..n - 1] + [p[n - 1]] == p;
    } else {
      var b' := b[..|b| - 1];
      var c := b[|b| - 1];
      assert c != Separator;
      SplitAppendPlain(a, b');
      DropLast(a, b);
      SplitSnoc(a + b', c);
      ExtendLast(p, b', c);
    }
  }

  /** One more character: a separator opens an empty piece, any other
      character extends the last one. */
  lemma SplitSnoc(s: string, c: char)
    ensures var p := Split(s);
            Split(s + [c]) == if c == Separator then p + [""] else ExtendLastPiece(p, [c])
  {
    assert (s + [c])[..|s|] == s;
    assert (s + [c])[|s|] == c;
  }

  /** Extending the last piece twice is extending it once by both. */
  lemma ExtendLast(p: seq<string>, b: string, c: char)
    requires |p| >= 1
    ensures ExtendLastPiece(ExtendLastPiece(p, b), [c]) == ExtendLastPiece(p, b + [c])
  {
    var init := ExtendLastPiece(p, b);
    assert init[..|init| - 1] == p[..|p| - 1];
    assert init[|init| - 1] + [c] == p[|p| - 1] + (b + [c]);
  }

  /** A separator followed by plain text opens exactly one new piece. */
  lemma SplitAfterSeparator(a: string, b: string)
    requires Separator !in b
    ensures Split(a + [Separator] + b) == Split(a) + [b]
  {
    var prefix := a + [Separator];
    assert prefix[..|prefix| - 1] == a;
    var p := Split(prefix);
    assert p == Split(a) + [""];
    SplitAppendPlain(prefix, b);
    assert ExtendLastPiece(p, b) == p[..|p| - 1] + [p[|p| - 1] + b];
    assert p[..|p| - 1] == Split(a);
    assert p[|p| - 1] + b == b;
  }

  /** Text with no separator is a single piece. */
  lemma SplitPlain(b: string)
    requires Separator !in b
    ensures Split(b) == [b]
  {
    SplitAppendPlain("", b);
    assert "" + b == b;
  }

  lemma NoSeparatorPrefix(pieces: seq<string>, k: nat)
    requires k <= |pieces|
    requires NoSeparator(pieces)
    ensures NoSeparator(pieces[..k])
  {
    forall i | 0 <= i < k ensures Separator !in pieces[..k][i] {
      assert pieces[..k][i] == pieces[i];
    }
  }

  /** Splitting is the inverse of joining: pieces free of separators are
      recovered exactly from their joined form, including empty pieces. */
  lemma {:induction false} SplitJoin(pieces: seq<string>)
    requires |pieces| >= 1
    requires NoSeparator(pieces)
    ensures Split(Join(pieces)) == pieces
  {
    var n := |pieces|;
    if n == 1 {
      SplitPlain(pieces[0]);
    } else {
      var init := pieces[..n - 1];
      NoSeparatorPrefix(pieces, n - 1);
      SplitJoin(init);
      SplitAfterSeparator(Join(init), pieces[n - 1]);
      assert init + [pieces[n - 1]] == pieces;
    }
  }

  /** Number of separators in `s`. */
  function Separators(s: string): nat
  {
    multiset(s)[Separator]
  }

  /** One piece more than there are separators: the list is never empty. */
  lemma {:induction false} SplitLength(s: string)
    ensures |Split(s)| == Separators(s) + 1
  {
    if |s| > 0 {
      var init := s[..|s| - 1];
      SplitLength(init);
      assert s == init + [s[|s| - 1]];
      assert multiset(s) == multiset(init) + multiset{s[|s| - 1]};
    }
  }

  /** An empty stored string still yields one (empty) topic. */
  lemma SplitEmpty()
    ensures Split("") == [""]
  {
  }

  /** Two adjacent separators keep the empty topic between them. */
  lemma SplitKeepsEmptyPiece()
    ensures Split("a::b") == ["a", "", "b"]
  {
    SplitPlain("a");
    SplitAfterSeparator("a", "");
    assert "a" + [Separator] + "" == "a:";
    SplitAfterSeparator("a:", "b");
    assert "a:" + [Separator] + "b" == "a::b";
  }

  /** The four-topic layout (telemetry, first relay, second relay,
      display) reads back field by field. */
  lemma SplitFourFields(t0: string, t1: string, t2: string, t3: string)
    requires Separator !in t0 && Separator !in t1 && Separator !in t2 && Separator !in t3
    ensures Split(t0 + [Separator] + t1 + [Separator] + t2 + [Separator] + t3) == [t0, t1, t2, t3]
  {
    SplitPlain(t0);
    SplitAfterSeparator(t0, t1);
    SplitAfterSeparator(t0 + [Separator] + t1, t2);
    SplitAfterSeparator(t0 + [Separator] + t1 + [Separator] + t2, t3);
  }
}
